=== FILE: README.md ===
# android-wifi: a Dafny model of the Wi-Fi core

This project models the core of an Android app that lists nearby Wi-Fi networks and connects to them. The core covers:

- **Cipher classification.** `getWifiCipher` reads a network's security class off its capability string.
- **Scan-result reduction.** `WifiManagerImpl.scanResults()` takes the platform's scan list and:
  - drops records without an SSID;
  - keeps one record per key `ssid + " " + capabilities`: the first-seen record, replaced only by a strictly stronger one;
  - sorts by five-level signal bucket, then by SSID ignoring case.
- **Connection requests.** `createWifiConfiguration` and `addNetworkSuggestion` build the legacy configuration, and the suggestion plus network request handed to the platform.
- **Main screen decisions.** `MainActivity` decides:
  - which scan result appears under the connected heading and which under the available heading;
  - what tapping a listed network does;
  - what confirming the password dialog does.
- **Event dispatch.** `WifiBroadcastReceiver.onReceive` and `NetworkCallbackImpl` turn platform broadcasts and capability changes into callbacks.
- **State wiring.** The callbacks in `WifiManagerImpl` feed the activity's three state flows: Wi-Fi enabled, scan results, connected network.

Everything is modelled with pure functions over immutable values:

- Kotlin's nullable types become `Option`.
- A call into the platform becomes a returned value (`PlatformCall`, `UiAction`, `Effect`), not an action.
- What the platform answers becomes a parameter: the API level, the services obtained, the suggestion status, the stored suggestions, the scan list and the connection info.
- The two `calculateSignalLevel` functions are platform code. They are function-valued fields of `Platform.Device`. Properties that depend on them require only that they are monotone (`Device.Valid`).

Modules, in dependency order:

| module | file | concern |
|---|---|---|
| `Nullable` | nullable.dfy | `Option`; a null string written as "null" |
| `Text` | text.dfy | substring search, ASCII case folding, `compareTo(ignoreCase)`, `replace` |
| `Platform` | platform.dfy | API levels, scan records, `getSsid` |
| `Cipher` | cipher.dfy | `getWifiCipher` |
| `Deduplication` | dedup.dfy | the SSID filter and the per-key reduction, with a declarative reference |
| `Ranking` | ranking.dfy | the comparator and a stable sort |
| `Scanning` | scan_results.dfy | `scanResults()` end to end |
| `Connection` | connection.dfy | `createWifiConfiguration`, `addNetworkSuggestion` |
| `Screen` | screen.dfy | banner and list, tap handler, dialog confirm |
| `Receiver` | receiver.dfy | `WifiBroadcastReceiver.onReceive` |
| `NetworkCallback` | network_callback.dfy | `NetworkCallbackImpl` |
| `App` | app.dfy | the callback wiring and the three state flows |

Four behaviours of the code are easy to miss; the model keeps each of them:

- A named record with an empty capability string is kept in the scan list (`Scanning.ScanResultsCoverEveryKey`).
- The tap handler tests only for NO_PASSWORD, so an INVALID network (empty capabilities) takes the secured path (`Screen.OnTap`).
- When two records fall in different buckets, the comparator orders them by raw level, not by bucket. `Ranking.PrecedesByBucket` proves the two orders agree when the bucket function is monotone.
- When the suggestion is accepted, `addNetworkSuggestion` makes two platform calls: the suggestion, then the network request (`Connection.AddNetworkSuggestion`).

## Model

| member | source | states |
|---|---|---|
| Nullable.StrLosesOnlyNull | app/src/main/java/com/fphoenixcorneae/android_wifi/WifiManagerImpl.kt:137-147 | appending a nullable string to the key loses only the difference between null and the text "null" |
| Text.Remove | app/src/main/java/com/fphoenixcorneae/android_wifi/MainActivity.kt:107 | `replace("\"", "")` leaves no quote, never lengthens, and is the identity on quote-free text |
| Text.RemoveConcat | app/src/main/java/com/fphoenixcorneae/android_wifi/MainActivity.kt:107 | the replacement works piecewise: removing from a concatenation is the concatenation of the removals |
| Text.RemoveOne | app/src/main/java/com/fphoenixcorneae/android_wifi/MainActivity.kt:107 | a single character is dropped iff it is the quote; with `Text.RemoveConcat` this pins down the whole result |
| Text.UnquoteExample | app/src/main/java/com/fphoenixcorneae/android_wifi/MainActivity.kt:107 | the platform's `"Home"` (with quotes) becomes `Home` |
| Text.LexLeReflexive | app/src/main/java/com/fphoenixcorneae/android_wifi/WifiManagerImpl.kt:183 | `compareTo` is reflexive |
| Text.LexLeTotal | app/src/main/java/com/fphoenixcorneae/android_wifi/WifiManagerImpl.kt:183 | `compareTo` is total |
| Text.LexLeTransitive | app/src/main/java/com/fphoenixcorneae/android_wifi/WifiManagerImpl.kt:183 | `compareTo` is transitive |
| Text.Contains | app/src/main/java/com/fphoenixcorneae/android_wifi/WifiManagerImpl.kt:375-376 | the case-sensitive `contains` behind the cipher tests; `Cipher.Classify`, `Cipher.WepBeforeWpa` and `Cipher.LowerWpa2PskIsOpen` state its effect |
| Text.ContainsIgnoreCase | app/src/main/java/com/fphoenixcorneae/android_wifi/WifiManagerImpl.kt:255 | `contains("wpa3", true)`; `Connection.ChoosePassphrase` states its effect |
| Text.LeIgnoreCase | app/src/main/java/com/fphoenixcorneae/android_wifi/WifiManagerImpl.kt:183 | `compareTo(…, ignoreCase = true) <= 0`; the Text.LexLe lemmas above make it a total preorder |
| Scanning.SsidReadingsAgree | app/src/main/java/com/fphoenixcorneae/android_wifi/WifiManagerImpl.kt:128-181 | for a named record the filter, the key and the sort read the SSID `getSsid()` displays; for a null SSID the key reads "null", the sort reads "", and `getSsid()` reads "null" from API 33 and "" below |
| Platform.DisplaySsid | app/src/main/java/com/fphoenixcorneae/android_wifi/WifiManagerImpl.kt:361-367 | `getSsid()`: "" for a null record; from API 33 on a null `wifiSsid` reads "null"; below API 33 a null `SSID` reads "" |
| Cipher.Classify | app/src/main/java/com/fphoenixcorneae/android_wifi/WifiManagerImpl.kt:373-378 | INVALID iff the capabilities are empty; WEP iff they contain "WEP"; WPA iff non-empty, no "WEP", and "WPA" or "WPS"; NO_PASSWORD iff non-empty with none of the three tokens |
| Cipher.CipherOf | app/src/main/java/com/fphoenixcorneae/android_wifi/WifiManagerImpl.kt:372-379 | a null record is NO_PASSWORD; INVALID iff a record has empty capabilities |
| Cipher.Wpa2ImpliesWpa | app/src/main/java/com/fphoenixcorneae/android_wifi/WifiManagerImpl.kt:376 | the "WPA2" test is subsumed by the "WPA" test |
| Cipher.NonEmptyIsClassified | app/src/main/java/com/fphoenixcorneae/android_wifi/WifiManagerImpl.kt:373-378 | non-empty capabilities are WEP, WPA or open, never INVALID |
| Cipher.NoUpperNoToken | app/src/main/java/com/fphoenixcorneae/android_wifi/WifiManagerImpl.kt:375-376 | text without upper-case letters contains no upper-case token |
| Cipher.LowerCaseIsOpen | app/src/main/java/com/fphoenixcorneae/android_wifi/WifiManagerImpl.kt:375-377 | matching is case-sensitive: non-empty text with no upper-case letter is open |
| Cipher.WepBeforeWpa | app/src/main/java/com/fphoenixcorneae/android_wifi/WifiManagerImpl.kt:375-376 | "[WEP][WPA]" is WEP |
| Cipher.Wpa2PskIsWpa | app/src/main/java/com/fphoenixcorneae/android_wifi/WifiManagerImpl.kt:376 | "[WPA2-PSK]" is WPA |
| Cipher.LowerWpa2PskIsOpen | app/src/main/java/com/fphoenixcorneae/android_wifi/WifiManagerImpl.kt:376-377 | "[wpa2-psk]" is open |
| Deduplication.KeepNamed | app/src/main/java/com/fphoenixcorneae/android_wifi/WifiManagerImpl.kt:128-134 | keeps exactly the records whose SSID is neither null nor empty; a fully named list is kept whole |
| Deduplication.KeepNamedConcat | app/src/main/java/com/fphoenixcorneae/android_wifi/WifiManagerImpl.kt:128-134 | the filter works piecewise, so the kept records stay in input order |
| Deduplication.KeepNamedOne | app/src/main/java/com/fphoenixcorneae/android_wifi/WifiManagerImpl.kt:128-134 | a single record is kept iff it is named; with `Deduplication.KeepNamedConcat` this pins down the whole result |
| Deduplication.Step | app/src/main/java/com/fphoenixcorneae/android_wifi/WifiManagerImpl.kt:148-165 | one iteration keeps every map slot in range, adds the record's key, and appends a record with a new key |
| Deduplication.Key | app/src/main/java/com/fphoenixcorneae/android_wifi/WifiManagerImpl.kt:137-147 | the map key: SSID text (a null SSID written "null"), a space, the capabilities; `Deduplication.KeyInjectiveWithoutSpaces` and `Deduplication.SpaceInSsidMergesNetworks` state what it tells apart |
| Deduplication.Strength | app/src/main/java/com/fphoenixcorneae/android_wifi/WifiManagerImpl.kt:154-162 | the strength compared on a key clash: the platform level bucket from API 30, the raw level below; `Deduplication.DedupKeepsStrongest` states its role |
| Deduplication.Dedup | app/src/main/java/com/fphoenixcorneae/android_wifi/WifiManagerImpl.kt:135-167 | the loop's map covers exactly the input's keys; the list is no longer than the input and holds only input records |
| Deduplication.FirstKeys | app/src/main/java/com/fphoenixcorneae/android_wifi/WifiManagerImpl.kt:148-150 | the reference key list: each input key exactly once; `Deduplication.FirstKeysInFirstOrder` states its order |
| Deduplication.AppendKeyInFirstOrder | app/src/main/java/com/fphoenixcorneae/android_wifi/WifiManagerImpl.kt:148-150 | one more record keeps keys in first-occurrence order: a known key changes nothing, a new key goes last |
| Deduplication.FirstKeysInFirstOrder | app/src/main/java/com/fphoenixcorneae/android_wifi/WifiManagerImpl.kt:148-150 | wherever a listed key occurs in the input, every key listed before it has occurred earlier: the list is in first-occurrence order |
| Deduplication.Best | app/src/main/java/com/fphoenixcorneae/android_wifi/WifiManagerImpl.kt:152-163 | the reference survivor: the strongest record of a key, with every earlier record of the key strictly weaker |
| Deduplication.BestUnique | app/src/main/java/com/fphoenixcorneae/android_wifi/WifiManagerImpl.kt:156-162 | that survivor is unique |
| Deduplication.BestAfterAppend | app/src/main/java/com/fphoenixcorneae/android_wifi/WifiManagerImpl.kt:151-165 | one more record moves its key's survivor only when strictly stronger, and no other key's |
| Deduplication.StepNewKey | app/src/main/java/com/fphoenixcorneae/android_wifi/WifiManagerImpl.kt:148-150 | a step on a new key keeps the loop equal to the reference |
| Deduplication.StepKnownKey | app/src/main/java/com/fphoenixcorneae/android_wifi/WifiManagerImpl.kt:151-165 | a step on a known key keeps the loop equal to the reference |
| Deduplication.DedupMatchesReference | app/src/main/java/com/fphoenixcorneae/android_wifi/WifiManagerImpl.kt:124-167 | the loop computes the reference: one slot per key in first-occurrence order, each holding the key's first strongest record |
| Deduplication.DedupKeysInFirstOrder | app/src/main/java/com/fphoenixcorneae/android_wifi/WifiManagerImpl.kt:148-150 | at most one record per key survives, in first-occurrence order |
| Deduplication.DedupKeepsStrongest | app/src/main/java/com/fphoenixcorneae/android_wifi/WifiManagerImpl.kt:151-165 | every input key keeps a record at least as strong as each input record with that key |
| Deduplication.DedupKeepsFirstOfEqual | app/src/main/java/com/fphoenixcorneae/android_wifi/WifiManagerImpl.kt:156-162 | ties keep the first-seen record |
| Deduplication.DedupDistinctIsIdentity | app/src/main/java/com/fphoenixcorneae/android_wifi/WifiManagerImpl.kt:148-150 | a list whose keys are already distinct comes back unchanged |
| Deduplication.DedupAppendsNewKey | app/src/main/java/com/fphoenixcorneae/android_wifi/WifiManagerImpl.kt:148-150 | a record with an unseen key is appended at the end |
| Deduplication.SpaceInSsidMergesNetworks | app/src/main/java/com/fphoenixcorneae/android_wifi/WifiManagerImpl.kt:137-147 | SSID "a b" with capabilities "c", and SSID "a" with capabilities "b c", share a key; only one survives |
| Deduplication.KeyInjectiveWithoutSpaces | app/src/main/java/com/fphoenixcorneae/android_wifi/WifiManagerImpl.kt:137-147 | without spaces in the capabilities, equal keys mean equal SSID text and capabilities |
| Ranking.SortName | app/src/main/java/com/fphoenixcorneae/android_wifi/WifiManagerImpl.kt:172-181 | the SSID the comparator reads, "" when null; `Scanning.SsidReadingsAgree` relates it to the displayed SSID |
| Ranking.Bucket | app/src/main/java/com/fphoenixcorneae/android_wifi/WifiManagerImpl.kt:170-171 | `calculateSignalLevel(level, 5)`, a platform function assumed monotone |
| Ranking.Precedes | app/src/main/java/com/fphoenixcorneae/android_wifi/WifiManagerImpl.kt:169-186 | the comparator as written: same bucket, SSID ignoring case; different buckets, raw level descending; the four lemmas below state its meaning |
| Ranking.PrecedesByBucket | app/src/main/java/com/fphoenixcorneae/android_wifi/WifiManagerImpl.kt:169-186 | with a monotone bucket function, the comparator is "higher bucket first, then SSID ignoring case" |
| Ranking.PrecedesTotal | app/src/main/java/com/fphoenixcorneae/android_wifi/WifiManagerImpl.kt:169-186 | every pair is ordered one way or the other |
| Ranking.PrecedesReflexive | app/src/main/java/com/fphoenixcorneae/android_wifi/WifiManagerImpl.kt:169-186 | every record may precede itself |
| Ranking.PrecedesTransitive | app/src/main/java/com/fphoenixcorneae/android_wifi/WifiManagerImpl.kt:169-186 | the comparator is transitive, so `sortWith` gets a valid order |
| Ranking.Insert | app/src/main/java/com/fphoenixcorneae/android_wifi/WifiManagerImpl.kt:169-187 | insertion adds exactly the one record |
| Ranking.Sort | app/src/main/java/com/fphoenixcorneae/android_wifi/WifiManagerImpl.kt:169-187 | the sort permutes its input |
| Ranking.InsertSorted | app/src/main/java/com/fphoenixcorneae/android_wifi/WifiManagerImpl.kt:169-187 | insertion keeps a list sorted |
| Ranking.SortSorted | app/src/main/java/com/fphoenixcorneae/android_wifi/WifiManagerImpl.kt:169-187 | the output is in comparator order |
| Ranking.InsertStable | app/src/main/java/com/fphoenixcorneae/android_wifi/WifiManagerImpl.kt:169-187 | insertion never jumps over an equal-ranked record |
| Ranking.SortStable | app/src/main/java/com/fphoenixcorneae/android_wifi/WifiManagerImpl.kt:169-187 | equal-ranked records keep their input order, as `sortWith` promises |
| Ranking.StableSortUnique | app/src/main/java/com/fphoenixcorneae/android_wifi/WifiManagerImpl.kt:169-187 | two sorted lists with the same equal-rank classes, in the same order, are equal; any stable sort gives this output |
| Ranking.SortSortedIsIdentity | app/src/main/java/com/fphoenixcorneae/android_wifi/WifiManagerImpl.kt:169-187 | sorting an already sorted list changes nothing |
| Scanning.ScanResults | app/src/main/java/com/fphoenixcorneae/android_wifi/WifiManagerImpl.kt:124-189 | a null platform list gives an empty list; the output is no longer than the input and holds only named input records |
| Scanning.InsertKeepsDistinctKeys | app/src/main/java/com/fphoenixcorneae/android_wifi/WifiManagerImpl.kt:169-187 | inserting a record with a new key keeps keys distinct |
| Scanning.SortKeepsDistinctKeys | app/src/main/java/com/fphoenixcorneae/android_wifi/WifiManagerImpl.kt:169-187 | sorting keeps keys distinct |
| Scanning.ScanResultsOnePerKey | app/src/main/java/com/fphoenixcorneae/android_wifi/WifiManagerImpl.kt:137-187 | the published list holds at most one record per key |
| Scanning.ScanResultsRanked | app/src/main/java/com/fphoenixcorneae/android_wifi/WifiManagerImpl.kt:169-187 | adjacent records are in a higher bucket, or the same bucket with a not-greater SSID ignoring case |
| Scanning.ScanResultsCoverEveryKey | app/src/main/java/com/fphoenixcorneae/android_wifi/WifiManagerImpl.kt:128-166 | every named platform record has a same-key record in the list at least as strong, even with empty capabilities |
| Scanning.ScanResultsIdempotent | app/src/main/java/com/fphoenixcorneae/android_wifi/WifiManagerImpl.kt:124-189 | reducing the reducer's own output returns it unchanged |
| Connection.CreateWifiConfiguration | app/src/main/java/com/fphoenixcorneae/android_wifi/WifiManagerImpl.kt:201-239 | the SSID unquotes to the given text; the cipher reads back from the key management; a pre-shared key (quoted password) and hidden flag iff WEP or WPA; an INVALID or null type gives a blank configuration |
| Connection.ConfigurationFields | app/src/main/java/com/fphoenixcorneae/android_wifi/WifiManagerImpl.kt:201-238 | the whole configuration for open, WEP and WPA: every bit set, the quoted key, the hidden flag, the WEP key index and the WPA status, with every other field left at its default |
| Connection.NullIsQuotedText | app/src/main/java/com/fphoenixcorneae/android_wifi/WifiManagerImpl.kt:208-227 | a null SSID or password becomes `"null"` in quotes |
| Connection.ChoosePassphrase | app/src/main/java/com/fphoenixcorneae/android_wifi/WifiManagerImpl.kt:253-261 | a passphrase only for WEP/WPA with a non-null password; WPA3 iff the capabilities mention "wpa3" in any case; it carries the password |
| Connection.BuildSuggestion | app/src/main/java/com/fphoenixcorneae/android_wifi/WifiManagerImpl.kt:248-263 | the suggestion built for a record; `Connection.RequestMatchesSuggestion` states its fields |
| Connection.BuildRequest | app/src/main/java/com/fphoenixcorneae/android_wifi/WifiManagerImpl.kt:267-286 | the request built after acceptance; `Connection.RequestMatchesSuggestion` states its fields |
| Connection.RequestMatchesSuggestion | app/src/main/java/com/fphoenixcorneae/android_wifi/WifiManagerImpl.kt:248-286 | suggestion and request name the same SSID, BSSID and passphrase; the request asks for Wi-Fi without INTERNET; the suggestion requires user interaction; a passphrase iff WEP/WPA with a password |
| Connection.AddNetworkSuggestion | app/src/main/java/com/fphoenixcorneae/android_wifi/WifiManagerImpl.kt:242-293 | no call for a null record or manager; else the passed or built suggestion first; a network request follows iff the status is SUCCESS or ADD_DUPLICATE and connectivity exists |
| Connection.PassedSuggestionReplacesBuilt | app/src/main/java/com/fphoenixcorneae/android_wifi/WifiManagerImpl.kt:265-281 | a passed suggestion is submitted as is; the request still uses the passphrase built from the password |
| Screen.ConnectedName | app/src/main/java/com/fphoenixcorneae/android_wifi/MainActivity.kt:107 | the connected SSID with its quotes removed; null iff there is no connection or it has no SSID; the result holds no quote |
| Screen.IsConnected | app/src/main/java/com/fphoenixcorneae/android_wifi/MainActivity.kt:105-108 | a record matches the connected name when its displayed SSID equals it; `Screen.QuotedConnectionMatches` states it for a quoted platform SSID |
| Screen.QuotedConnectionMatches | app/src/main/java/com/fphoenixcorneae/android_wifi/MainActivity.kt:105-108 | with the platform SSID `"name"` in quotes, a record matches iff it displays exactly `name` |
| Screen.FirstConnected | app/src/main/java/com/fphoenixcorneae/android_wifi/MainActivity.kt:105-108 | the first index whose SSID matches the connected name |
| Screen.Banner | app/src/main/java/com/fphoenixcorneae/android_wifi/MainActivity.kt:105-108 | the banner is the first matching scan result, or none when nothing matches |
| Screen.Others | app/src/main/java/com/fphoenixcorneae/android_wifi/MainActivity.kt:125-128 | keeps exactly the non-matching records |
| Screen.Available | app/src/main/java/com/fphoenixcorneae/android_wifi/MainActivity.kt:125-128 | the available list is null iff the scan list is null; it holds exactly the non-matching records |
| Screen.OthersKeepOrder | app/src/main/java/com/fphoenixcorneae/android_wifi/MainActivity.kt:125-128 | the filter distributes over concatenation, so order is kept |
| Screen.NoConnectionListsAll | app/src/main/java/com/fphoenixcorneae/android_wifi/MainActivity.kt:125-128 | without a connection every result is listed, in order |
| Screen.BannerAndAvailablePartition | app/src/main/java/com/fphoenixcorneae/android_wifi/MainActivity.kt:105-128 | the banner record is never listed; a record is listed iff its SSID differs from the banner's |
| Screen.FirstWithSsid | app/src/main/java/com/fphoenixcorneae/android_wifi/MainActivity.kt:156-162 | the first stored suggestion with the SSID: it has the SSID and no earlier one does; null iff none has it |
| Screen.TapsOpen | app/src/main/java/com/fphoenixcorneae/android_wifi/MainActivity.kt:142 | the safe-call test `selectedWifi?.getWifiCipher() == NO_PASSWORD`: true only for a non-null open record |
| Screen.OnTap | app/src/main/java/com/fphoenixcorneae/android_wifi/MainActivity.kt:140-171 | selects the tapped record; opens the dialog iff it is not open and (below API 30, or stored suggestions are null); tap actions never carry a password |
| Screen.NullSelectionIsNotOpen | app/src/main/java/com/fphoenixcorneae/android_wifi/MainActivity.kt:140-171 | a null selection takes the secured path: the dialog below API 30 or with a null query, otherwise a call that `addNetworkSuggestion` ignores; never a configuration |
| Screen.TapOpenNetwork | app/src/main/java/com/fphoenixcorneae/android_wifi/MainActivity.kt:142-153 | an open network is suggested without a password from API 29, or added as an open configuration below |
| Screen.TapSecuredFromR | app/src/main/java/com/fphoenixcorneae/android_wifi/MainActivity.kt:155-167 | from API 30, only a null suggestion query opens the dialog; any list goes to `addNetworkSuggestion` |
| Screen.TapSecuredBeforeR | app/src/main/java/com/fphoenixcorneae/android_wifi/MainActivity.kt:168-170 | below API 30 a non-open network always opens the dialog |
| Screen.TapWithoutStoredMatchSkipsDialog | app/src/main/java/com/fphoenixcorneae/android_wifi/MainActivity.kt:155-164 | an empty stored list for a WPA network submits a suggestion with no passphrase and no dialog |
| Screen.OnTapIntended | app/src/main/java/com/fphoenixcorneae/android_wifi/MainActivity.kt:155-170 | the corrected handler selects the tapped record |
| Screen.IntendedTapAsksOrReuses | app/src/main/java/com/fphoenixcorneae/android_wifi/MainActivity.kt:155-170 | corrected: a non-open network is submitted only with a matching stored suggestion; it does nothing beyond opening the dialog iff it is below API 30, the query is null, or no stored suggestion matches |
| Screen.IntendedDiffersOnlyWithoutMatch | app/src/main/java/com/fphoenixcorneae/android_wifi/MainActivity.kt:140-171 | the corrected and as-written handlers agree except on a non-null list without a match |
| Screen.OnConfirm | app/src/main/java/com/fphoenixcorneae/android_wifi/MainActivity.kt:185-195 | confirming closes the dialog; from API 29 it suggests the selected record with the typed password; below, nothing |
| Screen.ConfirmCarriesPassword | app/src/main/java/com/fphoenixcorneae/android_wifi/MainActivity.kt:191-194 | for a secured network, the submitted suggestion carries the password as WPA3 or WPA2 |
| Receiver.StateDispatch | app/src/main/java/com/fphoenixcorneae/android_wifi/WifiBroadcastReceiver.kt:18-30 | the enable callback fires true iff the state is ENABLED, false iff DISABLED; a missing extra reads as 0 |
| Receiver.ActionDispatch | app/src/main/java/com/fphoenixcorneae/android_wifi/WifiBroadcastReceiver.kt:32-41 | scan-results iff that action; reconnect iff the post-connection action |
| Receiver.OnReceive | app/src/main/java/com/fphoenixcorneae/android_wifi/WifiBroadcastReceiver.kt:17-42 | a null intent fires nothing; at most two callbacks, no callback twice, the enable one first; each fires iff its condition holds |
| Receiver.DispatchesIndependent | app/src/main/java/com/fphoenixcorneae/android_wifi/WifiBroadcastReceiver.kt:17-42 | the two dispatches are independent and concatenated |
| Receiver.OtherStatesFireNothing | app/src/main/java/com/fphoenixcorneae/android_wifi/WifiBroadcastReceiver.kt:29 | any other state fires no enable callback |
| Receiver.EnabledBroadcast | app/src/main/java/com/fphoenixcorneae/android_wifi/WifiBroadcastReceiver.kt:18-22 | a state-changed broadcast with ENABLED fires exactly `onEnabledWifi(true)` |
| NetworkCallback.OnNetworkEvent | app/src/main/java/com/fphoenixcorneae/android_wifi/NetworkCallbackImpl.kt:18-57 | only a validated capability change fires; Wi-Fi iff Wi-Fi transport, with the transport info from API 29 and null below; cellular iff cellular without Wi-Fi |
| NetworkCallback.WifiBeforeCellular | app/src/main/java/com/fphoenixcorneae/android_wifi/NetworkCallbackImpl.kt:32-46 | a validated network with both transports is reported as Wi-Fi |
| App.OnReceiverCallback | app/src/main/java/com/fphoenixcorneae/android_wifi/WifiManagerImpl.kt:32-49 | no receiver callback publishes a connection; Wi-Fi on publishes true, then a scan iff the manager exists, and nothing else; Wi-Fi off publishes exactly false and a null scan list; a post-connection broadcast publishes nothing and requests one scan iff the manager exists; the scan-results arm publishes the reduced list |
| App.OnNetworkCallback | app/src/main/java/com/fphoenixcorneae/android_wifi/WifiManagerImpl.kt:51-57 | only a Wi-Fi connection publishes, exactly once, into the connected flow: the carried info, else the manager's connection info |
| App.UnpublishedFlowKept | app/src/main/java/com/fphoenixcorneae/android_wifi/MainActivity.kt:200-216 | a flow nobody publishes into keeps its value |
| App.LastPublicationWins | app/src/main/java/com/fphoenixcorneae/android_wifi/MainActivity.kt:200-216 | each flow ends holding the value of the last publication into it |
| App.EnabledPublishesThenScans | app/src/main/java/com/fphoenixcorneae/android_wifi/WifiManagerImpl.kt:34-37 | ENABLED publishes true, then requests one scan iff the manager exists, leaving other flows alone |
| App.DisabledClearsScanResults | app/src/main/java/com/fphoenixcorneae/android_wifi/WifiManagerImpl.kt:34-40 | DISABLED publishes false, then a null scan list, with no scan |
| App.PostConnectionRescans | app/src/main/java/com/fphoenixcorneae/android_wifi/WifiManagerImpl.kt:46-48 | a post-connection broadcast requests one scan iff the manager exists, and changes no flow |
| App.ScanBroadcastPublishesReducedList | app/src/main/java/com/fphoenixcorneae/android_wifi/WifiManagerImpl.kt:42-45 | a scan broadcast publishes the reduced platform list and changes nothing else |
| App.NetworkEventTouchesOnlyConnection | app/src/main/java/com/fphoenixcorneae/android_wifi/WifiManagerImpl.kt:51-57 | a network event writes only the connected flow: the carried info, else the manager's connection info |
| App.ReceiverScansOnlyWithManager | app/src/main/java/com/fphoenixcorneae/android_wifi/WifiManagerImpl.kt:36-48 | no broadcast asks for a scan without a Wi-Fi manager |
| App.Step | app/src/main/java/com/fphoenixcorneae/android_wifi/WifiManagerImpl.kt:32-57 | one event: its callbacks' effects applied in order; the App lemmas above and below state what each event does |
| App.Run | app/src/main/java/com/fphoenixcorneae/android_wifi/MainActivity.kt:54-56 | a run of events from a state; `App.DisconnectedUntilWifiValidated` states what it keeps |
| App.ApplyAllKeepsConnection | app/src/main/java/com/fphoenixcorneae/android_wifi/MainActivity.kt:212-216 | only a connected publication writes the connected flow; the connected case of `App.UnpublishedFlowKept` |
| App.ReceiverNeverConnects | app/src/main/java/com/fphoenixcorneae/android_wifi/WifiManagerImpl.kt:32-49 | no receiver callback publishes a connection |
| App.DisconnectedUntilWifiValidated | app/src/main/java/com/fphoenixcorneae/android_wifi/MainActivity.kt:56 | across any run without a validated Wi-Fi event, the connected flow keeps its value (null from the start) |
| App.DisconnectedFromStart | app/src/main/java/com/fphoenixcorneae/android_wifi/MainActivity.kt:54-56 | the flows start as (false, null, null), and the connected flow stays null until a validated Wi-Fi network is reported |

## Left out

- Compose rendering: the layout and `WifiItem`, and the text-field and visibility handling of `ConnectWifiDialog`. These are UI, not decisions. Its confirm button closing the dialog is modelled (`Screen.OnConfirm`).
- Registration and lifecycle: registering and unregistering the receiver and callback, the intent filter, and the settings-panel launcher. `enabledWifi` is also left out: it toggles the radio or opens the settings panel, which is platform I/O.
- `addNetwork`, `removeNetwork`, `removeNetworkSuggestions`, `getWifiConfigurations`. These sequence `WifiManager` calls whose results come from the platform. A tap's call to `addNetwork` is modelled as the `AddNetwork` action carrying the configuration.
- Threading: `lifecycleScope.launch`, and the order in which emits from different coroutines land. Publications are applied in callback order.
- Logging.
- `MacAddress.fromString` rejecting a malformed BSSID: the BSSID is carried as text.
- The argument checks of the platform builders, such as `setWpa2Passphrase` and `setWpa3Passphrase` throwing `IllegalArgumentException` on a non-ASCII passphrase: the model always builds the suggestion and the specifier, in `addNetworkSuggestion` and on the dialog confirm alike.
- The `transportInfo as WifiInfo?` cast failing on a non-Wi-Fi transport info. The model's transport info is already a `WifiInfo` or null.
- The platform's own functions: the real `calculateSignalLevel` bucketing (kept abstract and assumed monotone), and how `WifiSsid.toString()` quotes an SSID (the text is taken as given).
- Text.LeIgnoreCase: case-insensitive comparison and `contains(…, true)` fold ASCII letters only. Kotlin also folds non-ASCII letters.
- Scanning.ScanResults: the model uses one insertion sort, not the platform's TimSort. `Ranking.StableSortUnique` shows every stable sort under this comparator gives the same output.
- Text.LexLe: compares strings character by character as Unicode scalar values. Kotlin compares UTF-16 code units, so a character outside the Basic Multilingual Plane (an emoji, high surrogate 0xD83D) sorts before fullwidth Ａ (0xFF21) in the app and after it in the model.

## Findings

| source | as written | input that shows it | evidently intended | confidence | as-written member | corrected member |
|---|---|---|---|---|---|---|
| app/src/main/java/com/fphoenixcorneae/android_wifi/MainActivity.kt:155-167 | `getNetworkSuggestions()?.filter{…}?.let { addNetworkSuggestion(selected, null, it.firstOrNull()) } ?: run { show dialog }`: the dialog opens only when the query itself is null | API 30, a WPA network "Home" (`[WPA2-PSK-CCMP][ESS]`), stored suggestions `[]`: a suggestion with no passphrase is submitted and no dialog appears | reuse a stored suggestion when one matches the SSID, otherwise ask for the password | not executed | Screen.TapWithoutStoredMatchSkipsDialog | Screen.IntendedTapAsksOrReuses |

=== FILE: app.dfy ===
/** The app's state machine: the three state flows of `MainActivity`
    (Wi-Fi enabled, scan results, connected network), written only by the
    callbacks `WifiManagerImpl` wires between the receiver, the network
    callback and the activity. */
module App {
  import opened Nullable
  import opened Platform
  import opened Scanning
  import opened Receiver
  import opened NetworkCallback

  /** `isWifiEnabled`, `wifiScanResults` and `wifiConnected`. */
  datatype AppState = AppState(wifiEnabled: bool, scanResults: Option<seq<ScanRecord>>, connected: Option<WifiInfo>)

  /** The initial values of the three flows. */
  const Initial := AppState(false, None, None)

  /** What handling a callback does: publish into one flow, or ask the
      platform for a scan. */
  datatype Effect =
    | PublishEnabled(enabled: bool)
    | PublishScanResults(results: Option<seq<ScanRecord>>)
    | PublishConnected(info: Option<WifiInfo>)
    | StartScan

  /** The platform as seen while an event is handled. */
  datatype Snapshot = Snapshot(
    device: Device,
    services: Services,
    scanList: Option<seq<ScanRecord>>,
    connectionInfo: Option<WifiInfo>)

  /** `mWifiManager?.scanResults`. */
  function PlatformScanList(p: Snapshot): Option<seq<ScanRecord>> {
    if p.services.wifiManager then p.scanList else None
  }

  /** `getConnectionWifiInfo()`, i.e. `mWifiManager?.connectionInfo`. */
  function ConnectionInfo(p: Snapshot): Option<WifiInfo> {
    if p.services.wifiManager then p.connectionInfo else None
  }

  /** `mWifiManager?.startScan()`. */
  function Scan(p: Snapshot): seq<Effect> {
    if p.services.wifiManager then [StartScan] else []
  }

  /** The receiver's callbacks as wired in `WifiManagerImpl`. */
  function OnReceiverCallback(p: Snapshot, f: Fired): (es: seq<Effect>)
    ensures forall k :: 0 <= k < |es| ==> !es[k].PublishConnected?
    ensures StartScan in es <==> p.services.wifiManager && (f == EnabledWifi(true) || f == WifiConnect)
    ensures PublishScanResults(None) in es <==> f == EnabledWifi(false)
    ensures f.EnabledWifi? ==> |es| >= 1 && es[0] == PublishEnabled(f.enabled)
    ensures f == EnabledWifi(true) ==> es == [PublishEnabled(true)] + (if p.services.wifiManager then [StartScan] else [])
    ensures f == EnabledWifi(false) ==> |es| == 2
    ensures f == WifiConnect ==> |es| <= 1 && forall k :: 0 <= k < |es| ==> es[k] == StartScan
    ensures f.ScanResultsAvailable? ==> es == [PublishScanResults(Some(ScanResults(p.device, PlatformScanList(p))))]
  {
    match f
    case EnabledWifi(on) =>
      if on then [PublishEnabled(true)] + Scan(p)
      else [PublishEnabled(false), PublishScanResults(None)]
    case ScanResultsAvailable => [PublishScanResults(Some(ScanResults(p.device, PlatformScanList(p))))]
    case WifiConnect => Scan(p)
  }

  /** The network callback's callbacks as wired in `WifiManagerImpl`; the
      cellular callback keeps its default, which does nothing. */
  function OnNetworkCallback(p: Snapshot, f: NetFired): (es: seq<Effect>)
    ensures |es| <= 1
    ensures es != [] <==> f.WifiConnected?
    ensures forall k :: 0 <= k < |es| ==> es[k].PublishConnected?
    ensures f.WifiConnected? && f.info.Some? ==> es == [PublishConnected(f.info)]
    ensures f.WifiConnected? && f.info.None? ==> es == [PublishConnected(ConnectionInfo(p))]
  {
    match f
    case WifiConnected(info) => [PublishConnected(if info.Some? then info else ConnectionInfo(p))]
    case CellularConnected => []
  }

  /** The activity's collectors: each publication overwrites its own flow. */
  function Apply(s: AppState, e: Effect): AppState {
    match e
    case PublishEnabled(b) => s.(wifiEnabled := b)
    case PublishScanResults(r) => s.(scanResults := r)
    case PublishConnected(i) => s.(connected := i)
    case StartScan => s
  }

  function ApplyAll(s: AppState, es: seq<Effect>): AppState
    decreases |es|
  {
    if es == [] then s else ApplyAll(Apply(s, es[0]), es[1..])
  }

  /** One of the three flows. */
  datatype Flow = EnabledFlow | ScanResultsFlow | ConnectedFlow

  /** `e` publishes into flow `f`. */
  predicate Writes(e: Effect, f: Flow) {
    match f
    case EnabledFlow => e.PublishEnabled?
    case ScanResultsFlow => e.PublishScanResults?
    case ConnectedFlow => e.PublishConnected?
  }

  /** Flow `f` of `s` holds the value `e` publishes into it. */
  predicate Shows(s: AppState, f: Flow, e: Effect)
    requires Writes(e, f)
  {
    match f
    case EnabledFlow => s.wifiEnabled == e.enabled
    case ScanResultsFlow => s.scanResults == e.results
    case ConnectedFlow => s.connected == e.info
  }

  /** `s` and `t` hold the same value in flow `f`. */
  predicate SameFlow(s: AppState, t: AppState, f: Flow) {
    match f
    case EnabledFlow => s.wifiEnabled == t.wifiEnabled
    case ScanResultsFlow => s.scanResults == t.scanResults
    case ConnectedFlow => s.connected == t.connected
  }

  /** A flow nobody publishes into keeps its value. */
  lemma {:induction false} UnpublishedFlowKept(s: AppState, es: seq<Effect>, f: Flow)
    requires forall k :: 0 <= k < |es| ==> !Writes(es[k], f)
    ensures SameFlow(ApplyAll(s, es), s, f)
    decreases |es|
  {
    if es != [] {
      UnpublishedFlowKept(Apply(s, es[0]), es[1..], f);
    }
  }

  /** Each flow ends holding the value of the last publication into it:
      the collectors keep no history and no other effect writes the flow. */
  lemma {:induction false} LastPublicationWins(s: AppState, es: seq<Effect>, f: Flow, i: nat)
    requires i < |es| && Writes(es[i], f)
    requires forall k :: i < k < |es| ==> !Writes(es[k], f)
    ensures Shows(ApplyAll(s, es), f, es[i])
    decreases |es|
  {
    if i == 0 {
      UnpublishedFlowKept(Apply(s, es[0]), es[1..], f);
    } else {
      LastPublicationWins(Apply(s, es[0]), es[1..], f, i - 1);
    }
  }

  /** An event from the platform. */
  datatype Event = Broadcast(intent: Option<Intent>) | Network(e: NetworkEvent)

  function ReceiverEffects(p: Snapshot, fs: seq<Fired>): seq<Effect>
    decreases |fs|
  {
    if fs == [] then [] else OnReceiverCallback(p, fs[0]) + ReceiverEffects(p, fs[1..])
  }

  function NetworkEffects(p: Snapshot, fs: seq<NetFired>): seq<Effect>
    decreases |fs|
  {
    if fs == [] then [] else OnNetworkCallback(p, fs[0]) + NetworkEffects(p, fs[1..])
  }

  /** Everything handling one event does, in order. */
  function Effects(p: Snapshot, e: Event): seq<Effect> {
    match e
    case Broadcast(intent) => ReceiverEffects(p, OnReceive(intent))
    case Network(ne) => NetworkEffects(p, OnNetworkEvent(p.device.sdk, ne))
  }

  /** The state after one event. */
  function Step(p: Snapshot, s: AppState, e: Event): AppState {
    ApplyAll(s, Effects(p, e))
  }

  /** The state after a sequence of events, each with the platform as it
      was at that moment. */
  function Run(s: AppState, trace: seq<(Snapshot, Event)>): AppState
    decreases |trace|
  {
    if trace == [] then s else Run(Step(trace[0].0, s, trace[0].1), trace[1..])
  }

  lemma ApplyAllOne(s: AppState, e: Effect)
    ensures ApplyAll(s, [e]) == Apply(s, e)
  {
    assert [e][1..] == [];
  }

  lemma ApplyAllTwo(s: AppState, e1: Effect, e2: Effect)
    ensures ApplyAll(s, [e1, e2]) == Apply(Apply(s, e1), e2)
  {
    assert [e1, e2][1..] == [e2];
    ApplyAllOne(Apply(s, e1), e2);
  }

  lemma ReceiverEffectsOne(p: Snapshot, f: Fired)
    ensures ReceiverEffects(p, [f]) == OnReceiverCallback(p, f)
  {
    assert [f][1..] == [];
  }

  lemma NetworkEffectsOne(p: Snapshot, f: NetFired)
    ensures NetworkEffects(p, [f]) == OnNetworkCallback(p, f)
  {
    assert [f][1..] == [];
  }

  /** A wifi-state broadcast saying ENABLED (with an action that fires
      nothing else) publishes `true`, asks for one scan when there is a
      manager, and touches no other flow. */
  lemma EnabledPublishesThenScans(p: Snapshot, s: AppState, action: Option<string>)
    requires action != Some(SCAN_RESULTS_AVAILABLE_ACTION)
    requires action != Some(NETWORK_SUGGESTION_POST_CONNECTION_ACTION)
    ensures var e := Broadcast(Some(Intent(action, Some(WIFI_STATE_ENABLED))));
      && Effects(p, e) == [PublishEnabled(true)] + (if p.services.wifiManager then [StartScan] else [])
      && Step(p, s, e) == s.(wifiEnabled := true)
  {
    var i := Some(Intent(action, Some(WIFI_STATE_ENABLED)));
    assert OnReceive(i) == [EnabledWifi(true)];
    ReceiverEffectsOne(p, EnabledWifi(true));
    if p.services.wifiManager {
      ApplyAllTwo(s, PublishEnabled(true), StartScan);
    } else {
      assert OnReceiverCallback(p, EnabledWifi(true)) == [PublishEnabled(true)];
      ApplyAllOne(s, PublishEnabled(true));
    }
  }

  /** A wifi-state broadcast saying DISABLED publishes `false`, then a null
      scan list, and asks for no scan. */
  lemma DisabledClearsScanResults(p: Snapshot, s: AppState, action: Option<string>)
    requires action != Some(SCAN_RESULTS_AVAILABLE_ACTION)
    requires action != Some(NETWORK_SUGGESTION_POST_CONNECTION_ACTION)
    ensures var e := Broadcast(Some(Intent(action, Some(WIFI_STATE_DISABLED))));
      Effects(p, e) == [PublishEnabled(false), PublishScanResults(None)] &&
      Step(p, s, e) == s.(wifiEnabled := false, scanResults := None)
  {
    var i := Some(Intent(action, Some(WIFI_STATE_DISABLED)));
    assert OnReceive(i) == [EnabledWifi(false)];
    ReceiverEffectsOne(p, EnabledWifi(false));
    ApplyAllTwo(s, PublishEnabled(false), PublishScanResults(None));
  }

  /** A post-connection broadcast leaves the state alone and asks for one
      scan when there is a manager, and for nothing without one. */
  lemma PostConnectionRescans(p: Snapshot, s: AppState, state: Option<int>)
    requires state.GetOr(0) != WIFI_STATE_ENABLED && state.GetOr(0) != WIFI_STATE_DISABLED
    ensures var e := Broadcast(Some(Intent(Some(NETWORK_SUGGESTION_POST_CONNECTION_ACTION), state)));
      && Effects(p, e) == (if p.services.wifiManager then [StartScan] else [])
      && Step(p, s, e) == s
  {
    var i := Some(Intent(Some(NETWORK_SUGGESTION_POST_CONNECTION_ACTION), state));
    assert OnReceive(i) == [WifiConnect];
    ReceiverEffectsOne(p, WifiConnect);
    if p.services.wifiManager {
      ApplyAllOne(s, StartScan);
    }
  }

  /** A scan-results broadcast publishes the reduced platform list and
      touches nothing else. */
  lemma ScanBroadcastPublishesReducedList(p: Snapshot, s: AppState, state: Option<int>)
    requires state.GetOr(0) != WIFI_STATE_ENABLED && state.GetOr(0) != WIFI_STATE_DISABLED
    ensures Step(p, s, Broadcast(Some(Intent(Some(SCAN_RESULTS_AVAILABLE_ACTION), state)))) ==
      s.(scanResults := Some(ScanResults(p.device, PlatformScanList(p))))
  {
    var i := Some(Intent(Some(SCAN_RESULTS_AVAILABLE_ACTION), state));
    assert OnReceive(i) == [ScanResultsAvailable];
    ReceiverEffectsOne(p, ScanResultsAvailable);
    ApplyAllOne(s, PublishScanResults(Some(ScanResults(p.device, PlatformScanList(p)))));
  }

  /** A network event changes only the connected flow; a validated Wi-Fi
      network publishes the info it carries from API 29 on, and the
      manager's connection info when it carries none. */
  lemma NetworkEventTouchesOnlyConnection(p: Snapshot, s: AppState, ne: NetworkEvent)
    ensures var s' := Step(p, s, Network(ne));
      && s'.wifiEnabled == s.wifiEnabled && s'.scanResults == s.scanResults
      && (ne.CapabilitiesChanged? && ne.caps.validated && ne.caps.wifiTransport ==>
            s'.connected ==
              (if p.device.sdk >= Q && ne.caps.transportInfo.Some? then ne.caps.transportInfo
               else ConnectionInfo(p)))
      && (!(ne.CapabilitiesChanged? && ne.caps.validated && ne.caps.wifiTransport) ==> s'.connected == s.connected)
  {
    var fs := OnNetworkEvent(p.device.sdk, ne);
    if fs != [] {
      assert fs == [fs[0]];
      NetworkEffectsOne(p, fs[0]);
      var es := OnNetworkCallback(p, fs[0]);
      if fs[0].WifiConnected? {
        ApplyAllOne(s, es[0]);
      } else {
        assert es == [];
      }
    }
  }

  /** No receiver callback asks for a scan without a Wi-Fi manager. */
  lemma {:induction false} ReceiverScansOnlyWithManager(p: Snapshot, fs: seq<Fired>)
    ensures StartScan in ReceiverEffects(p, fs) ==> p.services.wifiManager
    decreases |fs|
  {
    if fs != [] {
      ReceiverScansOnlyWithManager(p, fs[1..]);
    }
  }

  /** Only a validated Wi-Fi network event can write the connected flow. */
  predicate ConnectsWifi(e: Event) {
    e.Network? && e.e.CapabilitiesChanged? && e.e.caps.validated && e.e.caps.wifiTransport
  }

  /** Effects that publish nothing into the connected flow leave it alone. */
  lemma ApplyAllKeepsConnection(s: AppState, es: seq<Effect>)
    requires forall k :: 0 <= k < |es| ==> !es[k].PublishConnected?
    ensures ApplyAll(s, es).connected == s.connected
  {
    UnpublishedFlowKept(s, es, ConnectedFlow);
  }

  /** No receiver callback publishes into the connected flow. */
  lemma {:induction false} ReceiverNeverConnects(p: Snapshot, fs: seq<Fired>)
    ensures forall k :: 0 <= k < |ReceiverEffects(p, fs)| ==> !ReceiverEffects(p, fs)[k].PublishConnected?
    decreases |fs|
  {
    if fs != [] {
      ReceiverNeverConnects(p, fs[1..]);
      var head := OnReceiverCallback(p, fs[0]);
      assert forall k :: 0 <= k < |head| ==> !head[k].PublishConnected?;
    }
  }

  /** The connected flow changes only on a validated Wi-Fi network event;
      from the initial state it stays null until one is reported. */
  lemma {:induction false} DisconnectedUntilWifiValidated(s: AppState, trace: seq<(Snapshot, Event)>)
    requires forall k :: 0 <= k < |trace| ==> !ConnectsWifi(trace[k].1)
    ensures Run(s, trace).connected == s.connected
    decreases |trace|
  {
    if trace != [] {
      var p := trace[0].0;
      var e := trace[0].1;
      match e {
        case Broadcast(intent) =>
          ReceiverNeverConnects(p, OnReceive(intent));
          ApplyAllKeepsConnection(s, ReceiverEffects(p, OnReceive(intent)));
        case Network(ne) =>
          NetworkEventTouchesOnlyConnection(p, s, ne);
      }
      DisconnectedUntilWifiValidated(Step(p, s, e), trace[1..]);
    }
  }

  /** The flows start as (false, null, null), and the connected flow is
      still null after any run in which no validated Wi-Fi network has been
      reported. */
  lemma DisconnectedFromStart(trace: seq<(Snapshot, Event)>)
    requires forall k :: 0 <= k < |trace| ==> !ConnectsWifi(trace[k].1)
    ensures Initial == AppState(false, None, None)
    ensures Run(Initial, trace).connected.None?
  {
    DisconnectedUntilWifiValidated(Initial, trace);
  }
}

=== FILE: cipher.dfy ===
/** The `getWifiCipher()` extension: the encryption class of an access
    point, read off its capability string by substring tests. */
module Cipher {
  import opened Nullable
  import opened Text
  import opened Platform

  /** `WifiCipherType`. */
  datatype CipherType = WEP | WPA | NoPassword | Invalid

  /** The rule for a non-null record: an empty string is INVALID; then
      "WEP" is tested before "WPA", "WPA2" and "WPS"; anything else is open.
      All tests are case-sensitive. */
  function Classify(caps: string): (c: CipherType)
    ensures c == Invalid <==> caps == []
    ensures c == WEP <==> Contains(caps, "WEP")
    ensures c == WPA <==>
      caps != [] && !Contains(caps, "WEP") && (Contains(caps, "WPA") || Contains(caps, "WPS"))
    ensures c == NoPassword <==>
      caps != [] && !Contains(caps, "WEP") && !Contains(caps, "WPA") && !Contains(caps, "WPS")
  {
    assert Contains(caps, "WPA2") ==> Contains(caps, "WPA") by {
      if Contains(caps, "WPA2") {
        Wpa2ImpliesWpa(caps);
      }
    }
    if |caps| == 0 then Invalid
    else if Contains(caps, "WEP") then WEP
    else if Contains(caps, "WPA") || Contains(caps, "WPA2") || Contains(caps, "WPS") then WPA
    else NoPassword
  }

  /** `getWifiCipher()` on a nullable receiver: null is NO_PASSWORD. */
  function CipherOf(r: Option<ScanRecord>): (c: CipherType)
    ensures r.None? ==> c == NoPassword
    ensures c == Invalid <==> r.Some? && r.value.capabilities == []
  {
    match r
    case None => NoPassword
    case Some(rec) => Classify(rec.capabilities)
  }

  /** WEP, WPA: the two classes the app treats as needing a password. */
  predicate Secured(c: CipherType) {
    c == WEP || c == WPA
  }

  /** A character of an occurrence is the token's character. */
  lemma WindowChar(s: string, t: string, i: int, j: int)
    requires OccursAt(s, t, i) && 0 <= j < |t|
    ensures s[i + j] == t[j]
  {
    assert s[i..i + |t|][j] == s[i + j];
  }

  /** Every non-empty capability string is WEP, WPA or open. */
  lemma NonEmptyIsClassified(caps: string)
    requires caps != []
    ensures Classify(caps) in {WEP, WPA, NoPassword}
  {
  }

  /** A window equal to "WPA2" starts with "WPA", so the "WPA2" test never
      decides anything the "WPA" test has not already decided. */
  lemma {:induction false} Wpa2ImpliesWpa(s: string)
    requires Contains(s, "WPA2")
    ensures Contains(s, "WPA")
  {
    var i :| 0 <= i <= |s| && OccursAt(s, "WPA2", i);
    assert s[i..i + 3] == s[i..i + 4][..3];
    assert OccursAt(s, "WPA", i);
  }

  /** A window of a string without upper-case letters has none either, so
      it cannot equal an upper-case token. */
  lemma {:induction false} NoUpperNoToken(s: string, t: string)
    requires forall i :: 0 <= i < |s| ==> !IsUpper(s[i])
    requires |t| > 0 && IsUpper(t[0])
    ensures !Contains(s, t)
  {
  }

  /** Matching is case-sensitive: a non-empty string with no upper-case
      letter is always classified as open, whatever tokens it spells in
      lower case. */
  lemma LowerCaseIsOpen(caps: string)
    requires caps != []
    requires forall i :: 0 <= i < |caps| ==> !IsUpper(caps[i])
    ensures Classify(caps) == NoPassword
  {
    NoUpperNoToken(caps, "WEP");
    NoUpperNoToken(caps, "WPA");
    NoUpperNoToken(caps, "WPA2");
    NoUpperNoToken(caps, "WPS");
  }

  /** "WEP" wins over a WPA token appearing in the same string. */
  lemma WepBeforeWpa()
    ensures Classify("[WEP][WPA]") == WEP
  {
    assert OccursAt("[WEP][WPA]", "WEP", 1);
  }

  lemma Wpa2PskIsWpa()
    ensures Classify("[WPA2-PSK]") == WPA
  {
    assert OccursAt("[WPA2-PSK]", "WPA", 1);
    var s := "[WPA2-PSK]";
    forall i | 0 <= i <= |s|
      ensures !OccursAt(s, "WEP", i)
    {
      if OccursAt(s, "WEP", i) {
        WindowChar(s, "WEP", i, 0);
        WindowChar(s, "WEP", i, 1);
        assert false;
      }
    }
  }

  lemma LowerWpa2PskIsOpen()
    ensures Classify("[wpa2-psk]") == NoPassword
  {
    LowerCaseIsOpen("[wpa2-psk]");
  }
}

=== FILE: connection.dfy ===
/** The connection requests `WifiManagerImpl` builds: the legacy
    `WifiConfiguration` of `createWifiConfiguration`, and the suggestion and
    network request `addNetworkSuggestion` submits. Platform calls are
    returned as values instead of being made. */
module Connection {
  import opened Nullable
  import opened Text
  import opened Platform
  import opened Cipher

  // ---------------------------------------------------------------------
  // createWifiConfiguration

  /** `WifiConfiguration.AuthAlgorithm` values the app sets. */
  datatype AuthAlgorithm = OpenAuth
  /** `WifiConfiguration.GroupCipher` values the app sets. */
  datatype GroupCipher = GroupCcmp | GroupTkip | Wep40 | Wep104
  /** `WifiConfiguration.KeyMgmt` values the app sets. */
  datatype KeyMgmt = NoKeyMgmt | WpaPsk
  /** `WifiConfiguration.PairwiseCipher` values the app sets. */
  datatype PairwiseCipher = PairwiseTkip | PairwiseCcmp
  /** `WifiConfiguration.Protocol` values (cleared, never set). */
  datatype Protocol = WpaProtocol | RsnProtocol
  /** `WifiConfiguration.Status` values the app sets. */
  datatype ConfigStatus = StatusEnabled

  /** The fields of `WifiConfiguration` the app writes. A field the app
      leaves alone is `None` (`preSharedKey`, `wepTxKeyIndex`, `status`)
      or `false` (`hiddenSsid`), i.e. the platform default. */
  datatype WifiConfig = WifiConfig(
    ssid: string,
    preSharedKey: Option<string>,
    hiddenSsid: bool,
    authAlgorithms: set<AuthAlgorithm>,
    groupCiphers: set<GroupCipher>,
    keyManagement: set<KeyMgmt>,
    pairwiseCiphers: set<PairwiseCipher>,
    protocols: set<Protocol>,
    wepTxKeyIndex: Option<int>,
    status: Option<ConfigStatus>)

  /** `"\"" + s + "\""` for a nullable `s`. */
  function Quote(s: Option<string>): string {
    "\"" + Str(s) + "\""
  }

  /** The text between a leading and a trailing double quote. */
  function Unquote(s: string): Option<string> {
    if |s| >= 2 && s[0] == '"' && s[|s| - 1] == '"' then Some(s[1..|s| - 1]) else None
  }

  /** Reads back which cipher a configuration was built for: WPA-PSK key
      management is WPA; key management NONE is WEP when WEP group ciphers
      are allowed and open otherwise; no key management at all is none. */
  function ConfiguredCipher(c: WifiConfig): Option<CipherType> {
    if WpaPsk in c.keyManagement then Some(WPA)
    else if NoKeyMgmt in c.keyManagement then
      (if Wep40 in c.groupCiphers then Some(WEP) else Some(NoPassword))
    else None
  }

  /** `createWifiConfiguration(ssid, password, type)`. */
  function CreateWifiConfiguration(ssid: Option<string>, password: Option<string>, t: Option<CipherType>): (c: WifiConfig)
    ensures Unquote(c.ssid) == Some(Str(ssid))
    ensures ConfiguredCipher(c) == (if t == Some(Invalid) then None else t)
    ensures c.protocols == {}
    ensures c.preSharedKey.Some? <==> t == Some(WEP) || t == Some(WPA)
    ensures c.preSharedKey.Some? ==> Unquote(c.preSharedKey.value) == Some(Str(password))
    ensures c.hiddenSsid <==> c.preSharedKey.Some?
    ensures t !in {Some(WEP), Some(WPA), Some(NoPassword)} ==>
      c == WifiConfig(c.ssid, None, false, {}, {}, {}, {}, {}, None, None)
  {
    var blank := WifiConfig(Quote(ssid), None, false, {}, {}, {}, {}, {}, None, None);
    match t
    case Some(NoPassword) =>
      blank.(keyManagement := {NoKeyMgmt})
    case Some(WEP) =>
      blank.(preSharedKey := Some(Quote(password)), hiddenSsid := true,
             authAlgorithms := {OpenAuth},
             groupCiphers := {GroupCcmp, GroupTkip, Wep40, Wep104},
             keyManagement := {NoKeyMgmt}, wepTxKeyIndex := Some(0))
    case Some(WPA) =>
      blank.(preSharedKey := Some(Quote(password)), hiddenSsid := true,
             authAlgorithms := {OpenAuth},
             groupCiphers := {GroupTkip, GroupCcmp},
             keyManagement := {WpaPsk},
             pairwiseCiphers := {PairwiseTkip, PairwiseCcmp}, status := Some(StatusEnabled))
    case _ => blank
  }

  /** The field values for each cipher. */
  lemma ConfigurationFields(ssid: Option<string>, password: Option<string>, t: Option<CipherType>)
    ensures var c := CreateWifiConfiguration(ssid, password, t);
      var psk := "\"" + Str(password) + "\"";
      && c.ssid == "\"" + Str(ssid) + "\""
      && (t == Some(NoPassword) ==>
            c == WifiConfig(c.ssid, None, false, {}, {}, {NoKeyMgmt}, {}, {}, None, None))
      && (t == Some(WEP) ==>
            c == WifiConfig(c.ssid, Some(psk), true, {OpenAuth}, {GroupCcmp, GroupTkip, Wep40, Wep104},
                            {NoKeyMgmt}, {}, {}, Some(0), None))
      && (t == Some(WPA) ==>
            c == WifiConfig(c.ssid, Some(psk), true, {OpenAuth}, {GroupTkip, GroupCcmp},
                            {WpaPsk}, {PairwiseTkip, PairwiseCcmp}, {}, None, Some(StatusEnabled)))
  {
  }

  /** A null SSID or password is written as the text "null" between quotes. */
  lemma NullIsQuotedText(t: Option<CipherType>)
    requires t == Some(WEP) || t == Some(WPA)
    ensures CreateWifiConfiguration(None, None, t).ssid == "\"null\""
    ensures CreateWifiConfiguration(None, None, t).preSharedKey == Some("\"null\"")
  {
  }

  // ---------------------------------------------------------------------
  // addNetworkSuggestion

  /** The passphrase set on a suggestion or specifier builder. */
  datatype Passphrase = NoPassphrase | Wpa2Passphrase(wpa2: string) | Wpa3Passphrase(wpa3: string)

  /** `WifiNetworkSuggestion`. */
  datatype Suggestion = Suggestion(ssid: string, bssid: string, appInteractionRequired: bool, passphrase: Passphrase)

  /** `WifiNetworkSpecifier`. */
  datatype Specifier = Specifier(ssid: string, bssid: string, passphrase: Passphrase)

  /** `NetworkRequest`: the transport it asks for, whether it keeps the
      INTERNET capability, and its specifier. */
  datatype NetworkRequest = NetworkRequest(wifiTransport: bool, internetCapability: bool, specifier: Specifier)

  /** A call the app makes into the platform. */
  datatype PlatformCall =
    | AddNetworkSuggestions(suggestions: seq<Suggestion>)
    | RequestNetwork(request: NetworkRequest)

  /** `WifiManager.STATUS_NETWORK_SUGGESTIONS_SUCCESS` and
      `STATUS_NETWORK_SUGGESTIONS_ERROR_ADD_DUPLICATE`. */
  const STATUS_SUCCESS := 0
  const STATUS_ERROR_ADD_DUPLICATE := 3

  /** The passphrase both builders receive: only for a WEP or WPA record
      and a non-null password; WPA3 when the capabilities mention "wpa3" in
      any case, WPA2 otherwise (WEP included). */
  function ChoosePassphrase(r: ScanRecord, password: Option<string>): (p: Passphrase)
    ensures p != NoPassphrase <==> Secured(Classify(r.capabilities)) && password.Some?
    ensures p.Wpa3Passphrase? <==> p != NoPassphrase && ContainsIgnoreCase(r.capabilities, "wpa3")
    ensures p.Wpa2Passphrase? ==> p.wpa2 == password.value
    ensures p.Wpa3Passphrase? ==> p.wpa3 == password.value
  {
    if Secured(Classify(r.capabilities)) && password.Some? then
      if ContainsIgnoreCase(r.capabilities, "wpa3") then Wpa3Passphrase(password.value)
      else Wpa2Passphrase(password.value)
    else NoPassphrase
  }

  /** The suggestion `addNetworkSuggestion` builds for a record. */
  function BuildSuggestion(sdk: int, r: ScanRecord, password: Option<string>): Suggestion {
    Suggestion(DisplaySsid(sdk, Some(r)), r.bssid, true, ChoosePassphrase(r, password))
  }

  /** The request that follows an accepted suggestion. */
  function BuildRequest(sdk: int, r: ScanRecord, password: Option<string>): NetworkRequest {
    NetworkRequest(true, false, Specifier(DisplaySsid(sdk, Some(r)), r.bssid, ChoosePassphrase(r, password)))
  }

  /** The request asks for the same network the suggestion names: same
      SSID, BSSID and passphrase, over Wi-Fi and without the INTERNET
      capability; a user-approval prompt is required on the suggestion. */
  lemma RequestMatchesSuggestion(sdk: int, r: ScanRecord, password: Option<string>)
    ensures var sg := BuildSuggestion(sdk, r, password);
      var rq := BuildRequest(sdk, r, password);
      && rq.specifier == Specifier(sg.ssid, sg.bssid, sg.passphrase)
      && rq.wifiTransport && !rq.internetCapability
      && sg.appInteractionRequired
      && sg.bssid == r.bssid
      && (sg.passphrase != NoPassphrase <==> Secured(Classify(r.capabilities)) && password.Some?)
  {
  }

  /** `addNetworkSuggestion(scanResult, password, networkSuggestion)`. The
      `status` is what `addNetworkSuggestions` answers when it is called. */
  function AddNetworkSuggestion(sdk: int, services: Services, status: int,
                                scan: Option<ScanRecord>, password: Option<string>,
                                suggestion: Option<Suggestion>): (calls: seq<PlatformCall>)
    ensures scan.None? || !services.wifiManager ==> calls == []
    ensures scan.Some? && services.wifiManager ==>
      |calls| >= 1 && calls[0] == AddNetworkSuggestions([suggestion.GetOr(BuildSuggestion(sdk, scan.value, password))])
    ensures |calls| == 2 <==>
      scan.Some? && services.wifiManager && services.connectivityManager &&
      (status == STATUS_SUCCESS || status == STATUS_ERROR_ADD_DUPLICATE)
    ensures |calls| == 2 ==> calls[1] == RequestNetwork(BuildRequest(sdk, scan.value, password))
    ensures |calls| <= 2
  {
    match scan
    case None => []
    case Some(r) =>
      if !services.wifiManager then []
      else
        var submitted := suggestion.GetOr(BuildSuggestion(sdk, r, password));
        var accepted := status == STATUS_SUCCESS || status == STATUS_ERROR_ADD_DUPLICATE;
        [AddNetworkSuggestions([submitted])] +
        (if accepted && services.connectivityManager then [RequestNetwork(BuildRequest(sdk, r, password))] else [])
  }

  /** A suggestion passed in is submitted in place of the built one, but the
      network request still carries the passphrase chosen from the password. */
  lemma PassedSuggestionReplacesBuilt(sdk: int, services: Services, status: int, r: ScanRecord,
                                      password: Option<string>, s: Suggestion)
    requires services.wifiManager
    ensures var calls := AddNetworkSuggestion(sdk, services, status, Some(r), password, Some(s));
      calls[0] == AddNetworkSuggestions([s]) &&
      (|calls| == 2 ==> calls[1].request.specifier.passphrase == ChoosePassphrase(r, password))
  {
  }
}

=== FILE: dedup.dfy ===
/** The first two stages of `WifiManagerImpl.scanResults()`: dropping
    records without an SSID, then keeping one record per key
    `ssid + " " + capabilities`. A key keeps the list slot of its first
    occurrence; a later record with the key takes over that slot only when
    its signal is strictly stronger. */
module Deduplication {
  import opened Nullable
  import opened Platform

  /** The record's SSID is neither null nor empty. */
  predicate Named(sdk: int, r: ScanRecord) {
    RawSsid(sdk, r).Some? && RawSsid(sdk, r).value != ""
  }

  /** The `filter { !ssid.isNullOrEmpty() }` step. */
  function KeepNamed(sdk: int, rs: seq<ScanRecord>): (out: seq<ScanRecord>)
    ensures |out| <= |rs|
    ensures forall x :: x in out ==> x in rs && Named(sdk, x)
    ensures forall x :: x in rs && Named(sdk, x) ==> x in out
    ensures (forall i :: 0 <= i < |rs| ==> Named(sdk, rs[i])) ==> out == rs
    decreases |rs|
  {
    if rs == [] then []
    else (if Named(sdk, rs[0]) then [rs[0]] else []) + KeepNamed(sdk, rs[1..])
  }

  /** The filter works piecewise: it distributes over concatenation, so the
      records it keeps stay in their input order. */
  lemma {:induction false} KeepNamedConcat(sdk: int, a: seq<ScanRecord>, b: seq<ScanRecord>)
    ensures KeepNamed(sdk, a + b) == KeepNamed(sdk, a) + KeepNamed(sdk, b)
    decreases |a|
  {
    if a == [] {
      assert a + b == b;
    } else {
      assert (a + b)[0] == a[0];
      assert (a + b)[1..] == a[1..] + b;
      KeepNamedConcat(sdk, a[1..], b);
    }
  }

  /** A single record is kept exactly when it is named. */
  lemma KeepNamedOne(sdk: int, r: ScanRecord)
    ensures KeepNamed(sdk, [r]) == (if Named(sdk, r) then [r] else [])
  {
    assert [r][1..] == [];
  }

  /** The deduplication key, built with `buildString`, where appending a
      null SSID would write "null". */
  function Key(sdk: int, r: ScanRecord): string {
    Str(RawSsid(sdk, r)) + " " + r.capabilities
  }

  /** The signal compared when two records share a key: the instance
      `calculateSignalLevel` from API 30 on, the raw level below. */
  function Strength(d: Device, r: ScanRecord): int {
    if d.sdk >= R then d.signalLevel(r.level) else r.level
  }

  /** The reducer's working state: the `signalStrength` map from key to
      slot, and the `results` list. */
  datatype Slots = Slots(index: map<string, nat>, results: seq<ScanRecord>)

  /** Every slot the map names exists in the list. */
  ghost predicate Valid(st: Slots) {
    forall k :: k in st.index ==> st.index[k] < |st.results|
  }

  /** One iteration of `forEachIndexed`. */
  function Step(d: Device, st: Slots, r: ScanRecord): (st': Slots)
    requires Valid(st)
    ensures Valid(st')
    ensures |st.results| <= |st'.results| <= |st.results| + 1
    ensures forall x :: x in st'.results ==> x in st.results || x == r
    ensures st'.index.Keys == st.index.Keys + {Key(d.sdk, r)}
    ensures Key(d.sdk, r) !in st.index ==> st'.results == st.results + [r]
  {
    var k := Key(d.sdk, r);
    if k !in st.index then
      Slots(st.index[k := |st.results|], st.results + [r])
    else
      var p := st.index[k];
      if Strength(d, r) > Strength(d, st.results[p]) then Slots(st.index, st.results[p := r])
      else st
  }

  /** The loop over a whole list, from an empty map and list. */
  function Dedup(d: Device, rs: seq<ScanRecord>): (st: Slots)
    ensures Valid(st)
    ensures |st.results| <= |rs|
    ensures forall x :: x in st.results ==> x in rs
    ensures st.index.Keys == KeySet(d.sdk, rs)
    decreases |rs|
  {
    if rs == [] then Slots(map[], [])
    else
      var init := rs[..|rs| - 1];
      assert KeySet(d.sdk, rs) == KeySet(d.sdk, init) + {Key(d.sdk, rs[|rs| - 1])} by {
        assert forall i :: 0 <= i < |init| ==> init[i] == rs[i];
      }
      Step(d, Dedup(d, init), rs[|rs| - 1])
  }

  // ---------------------------------------------------------------------
  // A declarative description of the result, independent of the loop.

  /** The keys that occur in `rs`. */
  function KeySet(sdk: int, rs: seq<ScanRecord>): set<string> {
    set i | 0 <= i < |rs| :: Key(sdk, rs[i])
  }

  /** Wherever a key of `ks` occurs in `rs`, every key listed before it has
      already occurred: `ks` lists keys by first occurrence. */
  ghost predicate KeysInFirstOrder(sdk: int, rs: seq<ScanRecord>, ks: seq<string>) {
    forall i, j, q :: 0 <= i < j < |ks| && 0 <= q < |rs| && Key(sdk, rs[q]) == ks[j] ==>
      exists p :: 0 <= p < q && Key(sdk, rs[p]) == ks[i]
  }

  /** The distinct keys of `rs` in the order of their first occurrence. */
  function FirstKeys(sdk: int, rs: seq<ScanRecord>): (ks: seq<string>)
    ensures forall i, j :: 0 <= i < j < |ks| ==> ks[i] != ks[j]
    ensures forall k :: k in ks <==> k in KeySet(sdk, rs)
    decreases |rs|
  {
    if rs == [] then []
    else
      var ks := FirstKeys(sdk, rs[..|rs| - 1]);
      var k := Key(sdk, rs[|rs| - 1]);
      assert forall k' :: k' in KeySet(sdk, rs) <==> k' in KeySet(sdk, rs[..|rs| - 1]) || k' == k;
      if k in ks then ks else ks + [k]
  }

  /** One more record keeps the first-occurrence order: a known key leaves
      the list alone, a new key goes last. */
  lemma AppendKeyInFirstOrder(sdk: int, init: seq<ScanRecord>, r: ScanRecord, ks: seq<string>)
    requires forall k :: k in ks <==> k in KeySet(sdk, init)
    requires KeysInFirstOrder(sdk, init, ks)
    ensures var k := Key(sdk, r);
      KeysInFirstOrder(sdk, init + [r], if k in ks then ks else ks + [k])
  {
    var rs := init + [r];
    var k := Key(sdk, r);
    var ks' := if k in ks then ks else ks + [k];
    forall i, j, q | 0 <= i < j < |ks'| && 0 <= q < |rs| && Key(sdk, rs[q]) == ks'[j]
      ensures exists p :: 0 <= p < q && Key(sdk, rs[p]) == ks'[i]
    {
      if j < |ks| && q < |init| {
        assert init[q] == rs[q];
        var p :| 0 <= p < q && Key(sdk, init[p]) == ks[i];
        assert rs[p] == init[p];
      } else if j < |ks| {
        // The last record repeats a key already seen in `init`.
        assert ks[j] in KeySet(sdk, init);
        var q' :| 0 <= q' < |init| && Key(sdk, init[q']) == ks[j];
        var p :| 0 <= p < q' && Key(sdk, init[p]) == ks[i];
        assert rs[p] == init[p];
      } else {
        // `ks'[j]` is the new key, absent from `init`, so `q` is the last
        // record; the earlier key occurs somewhere in `init`.
        assert ks'[j] == k && k !in KeySet(sdk, init);
        if q < |init| {
          assert false;
        }
        assert ks'[i] == ks[i] && ks[i] in KeySet(sdk, init);
        var p :| 0 <= p < |init| && Key(sdk, init[p]) == ks[i];
        assert rs[p] == init[p];
      }
    }
    assert KeysInFirstOrder(sdk, rs, ks');
  }

  /** The reference lists keys by first occurrence: wherever a key occurs,
      every key listed before it has occurred earlier. */
  lemma {:induction false} FirstKeysInFirstOrder(sdk: int, rs: seq<ScanRecord>)
    ensures KeysInFirstOrder(sdk, rs, FirstKeys(sdk, rs))
    decreases |rs|
  {
    if rs != [] {
      var init := rs[..|rs| - 1];
      FirstKeysInFirstOrder(sdk, init);
      assert rs == init + [rs[|rs| - 1]];
      AppendKeyInFirstOrder(sdk, init, rs[|rs| - 1], FirstKeys(sdk, init));
    }
  }

  /** Position `i` holds the strongest record with key `k`, and every
      earlier record with that key is strictly weaker: the first maximum. */
  ghost predicate IsBest(d: Device, rs: seq<ScanRecord>, k: string, i: int) {
    && 0 <= i < |rs|
    && Key(d.sdk, rs[i]) == k
    && (forall j :: 0 <= j < |rs| && Key(d.sdk, rs[j]) == k ==> Strength(d, rs[j]) <= Strength(d, rs[i]))
    && (forall j :: 0 <= j < i && Key(d.sdk, rs[j]) == k ==> Strength(d, rs[j]) < Strength(d, rs[i]))
  }

  /** The position of the first strongest record with key `k`, found by a
      scan from the front. */
  function Best(d: Device, rs: seq<ScanRecord>, k: string): (i: nat)
    requires k in KeySet(d.sdk, rs)
    ensures IsBest(d, rs, k, i)
    decreases |rs|
  {
    var tail := rs[1..];
    assert forall k' :: k' in KeySet(d.sdk, rs) <==> k' in KeySet(d.sdk, tail) || k' == Key(d.sdk, rs[0]) by {
      forall k' | k' in KeySet(d.sdk, rs)
        ensures k' in KeySet(d.sdk, tail) || k' == Key(d.sdk, rs[0])
      {
        var i :| 0 <= i < |rs| && Key(d.sdk, rs[i]) == k';
        if i > 0 {
          assert tail[i - 1] == rs[i];
        }
      }
      forall k' | k' in KeySet(d.sdk, tail)
        ensures k' in KeySet(d.sdk, rs)
      {
        var i :| 0 <= i < |tail| && Key(d.sdk, tail[i]) == k';
        assert rs[i + 1] == tail[i];
      }
    }
    if k !in KeySet(d.sdk, tail) then 0
    else
      var b := 1 + Best(d, tail, k);
      if Key(d.sdk, rs[0]) == k && Strength(d, rs[0]) >= Strength(d, rs[b]) then 0 else b
  }

  /** The first maximum is unique. */
  lemma BestUnique(d: Device, rs: seq<ScanRecord>, k: string, i: int)
    requires IsBest(d, rs, k, i)
    ensures k in KeySet(d.sdk, rs)
    ensures Best(d, rs, k) == i
  {
    assert Key(d.sdk, rs[i]) in KeySet(d.sdk, rs);
  }

  /** The map points each key of `ks` at its position in `ks`, and at
      nothing else. */
  ghost predicate IndexMatches(ks: seq<string>, index: map<string, nat>) {
    && (forall k :: k in index <==> k in ks)
    && (forall i :: 0 <= i < |ks| ==> ks[i] in index && index[ks[i]] == i)
  }

  /** Slot `i` of `results` holds the first strongest record of `ks[i]`. */
  ghost predicate SlotsMatch(d: Device, rs: seq<ScanRecord>, ks: seq<string>, results: seq<ScanRecord>)
    requires forall k :: k in ks ==> k in KeySet(d.sdk, rs)
  {
    && |results| == |ks|
    && (forall i :: 0 <= i < |ks| ==> results[i] == rs[Best(d, rs, ks[i])])
  }

  /** What the loop computes, stated by the reference: one slot per key in
      first-occurrence order, the map pointing each key at its slot, and
      each slot holding the key's first strongest record. */
  ghost predicate Reduces(d: Device, rs: seq<ScanRecord>, st: Slots) {
    var ks := FirstKeys(d.sdk, rs);
    IndexMatches(ks, st.index) && SlotsMatch(d, rs, ks, st.results)
  }

  /** Adding one record to the input moves the first maximum of its key as
      the replacement rule does, and leaves every other key's alone. */
  lemma BestAfterAppend(d: Device, rs: seq<ScanRecord>, k: string)
    requires |rs| > 0
    requires k in KeySet(d.sdk, rs)
    ensures
      var init, r := rs[..|rs| - 1], rs[|rs| - 1];
      Best(d, rs, k) ==
        if k != Key(d.sdk, r) then Best(d, init, k)
        else if k !in KeySet(d.sdk, init) then |rs| - 1
        else if Strength(d, r) > Strength(d, init[Best(d, init, k)]) then |rs| - 1
        else Best(d, init, k)
  {
    var init, r := rs[..|rs| - 1], rs[|rs| - 1];
    assert forall j :: 0 <= j < |init| ==> init[j] == rs[j];
    if k != Key(d.sdk, r) {
      var i :| 0 <= i < |rs| && Key(d.sdk, rs[i]) == k;
      assert Key(d.sdk, init[i]) == k;
      BestUnique(d, rs, k, Best(d, init, k));
    } else if k !in KeySet(d.sdk, init) {
      forall j | 0 <= j < |init|
        ensures Key(d.sdk, rs[j]) != k
      {
        assert Key(d.sdk, init[j]) in KeySet(d.sdk, init);
      }
      BestUnique(d, rs, k, |rs| - 1);
    } else if Strength(d, r) > Strength(d, init[Best(d, init, k)]) {
      BestUnique(d, rs, k, |rs| - 1);
    } else {
      BestUnique(d, rs, k, Best(d, init, k));
    }
  }

  /** A record whose key is new takes a new slot at the end. */
  lemma StepNewKey(d: Device, rs: seq<ScanRecord>, st: Slots)
    requires |rs| > 0 && Valid(st)
    requires Reduces(d, rs[..|rs| - 1], st)
    requires Key(d.sdk, rs[|rs| - 1]) !in st.index
    ensures Reduces(d, rs, Step(d, st, rs[|rs| - 1]))
  {
    var init, r := rs[..|rs| - 1], rs[|rs| - 1];
    var ks, k := FirstKeys(d.sdk, init), Key(d.sdk, r);
    var ks' := FirstKeys(d.sdk, rs);
    var st' := Step(d, st, r);
    assert ks' == ks + [k];
    assert st'.results == st.results + [r];
    assert IndexMatches(ks', st'.index);
    forall i | 0 <= i < |ks'|
      ensures st'.results[i] == rs[Best(d, rs, ks'[i])]
    {
      BestAfterAppend(d, rs, ks'[i]);
      if i < |ks| {
        assert init[Best(d, init, ks[i])] == rs[Best(d, init, ks[i])];
      }
    }
  }

  /** A record whose key is known either takes over the key's slot or
      leaves the state as it is, as the reference's first maximum moves. */
  lemma StepKnownKey(d: Device, rs: seq<ScanRecord>, st: Slots)
    requires |rs| > 0 && Valid(st)
    requires Reduces(d, rs[..|rs| - 1], st)
    requires Key(d.sdk, rs[|rs| - 1]) in st.index
    ensures Reduces(d, rs, Step(d, st, rs[|rs| - 1]))
  {
    var init, r := rs[..|rs| - 1], rs[|rs| - 1];
    var ks, k := FirstKeys(d.sdk, init), Key(d.sdk, r);
    var ks' := FirstKeys(d.sdk, rs);
    var st' := Step(d, st, r);
    assert ks' == ks;
    assert st'.index == st.index;
    forall i | 0 <= i < |ks'|
      ensures st'.results[i] == rs[Best(d, rs, ks'[i])]
    {
      BestAfterAppend(d, rs, ks'[i]);
      assert init[Best(d, init, ks[i])] == rs[Best(d, init, ks[i])];
    }
  }

  /** The loop agrees with the reference on every input. */
  lemma {:induction false} DedupMatchesReference(d: Device, rs: seq<ScanRecord>)
    ensures Reduces(d, rs, Dedup(d, rs))
    decreases |rs|
  {
    if rs == [] {
      return;
    }
    var init, r := rs[..|rs| - 1], rs[|rs| - 1];
    DedupMatchesReference(d, init);
    if Key(d.sdk, r) in Dedup(d, init).index {
      StepKnownKey(d, rs, Dedup(d, init));
    } else {
      StepNewKey(d, rs, Dedup(d, init));
    }
  }

  // ---------------------------------------------------------------------
  // Consequences for callers.

  /** At most one record per key survives, and the slots follow the order
      in which keys first occur. */
  lemma DedupKeysInFirstOrder(d: Device, rs: seq<ScanRecord>)
    ensures var st := Dedup(d, rs);
      && |st.results| == |FirstKeys(d.sdk, rs)|
      && (forall i :: 0 <= i < |st.results| ==> Key(d.sdk, st.results[i]) == FirstKeys(d.sdk, rs)[i])
      && (forall i, j :: 0 <= i < j < |st.results| ==> Key(d.sdk, st.results[i]) != Key(d.sdk, st.results[j]))
  {
    DedupMatchesReference(d, rs);
  }

  /** Every key of the input keeps a slot, and the record in it is at least
      as strong as every input record with that key. */
  lemma DedupKeepsStrongest(d: Device, rs: seq<ScanRecord>)
    ensures var st := Dedup(d, rs);
      forall j :: 0 <= j < |rs| ==>
        && Key(d.sdk, rs[j]) in st.index
        && Key(d.sdk, st.results[st.index[Key(d.sdk, rs[j])]]) == Key(d.sdk, rs[j])
        && Strength(d, rs[j]) <= Strength(d, st.results[st.index[Key(d.sdk, rs[j])]])
  {
    DedupMatchesReference(d, rs);
    var st, ks := Dedup(d, rs), FirstKeys(d.sdk, rs);
    forall j | 0 <= j < |rs|
      ensures Key(d.sdk, rs[j]) in st.index
      ensures Key(d.sdk, st.results[st.index[Key(d.sdk, rs[j])]]) == Key(d.sdk, rs[j])
      ensures Strength(d, rs[j]) <= Strength(d, st.results[st.index[Key(d.sdk, rs[j])]])
    {
      var k := Key(d.sdk, rs[j]);
      assert k in KeySet(d.sdk, rs);
      var i := st.index[k];
      assert ks[i] == k;
    }
  }

  /** Ties keep the first-seen record: when `rs[j]` is the first record of
      its key that no later record of the key beats, it is the survivor. */
  lemma DedupKeepsFirstOfEqual(d: Device, rs: seq<ScanRecord>, j: int)
    requires 0 <= j < |rs|
    requires forall i :: 0 <= i < |rs| && Key(d.sdk, rs[i]) == Key(d.sdk, rs[j]) ==>
      Strength(d, rs[i]) <= Strength(d, rs[j])
    requires forall i :: 0 <= i < j ==> Key(d.sdk, rs[i]) != Key(d.sdk, rs[j])
    ensures var st := Dedup(d, rs);
      Key(d.sdk, rs[j]) in st.index && st.results[st.index[Key(d.sdk, rs[j])]] == rs[j]
  {
    DedupMatchesReference(d, rs);
    var st, ks, k := Dedup(d, rs), FirstKeys(d.sdk, rs), Key(d.sdk, rs[j]);
    BestUnique(d, rs, k, j);
    var i := st.index[k];
    assert ks[i] == k;
  }

  /** A list whose keys are already distinct comes back unchanged. */
  lemma {:induction false} DedupDistinctIsIdentity(d: Device, rs: seq<ScanRecord>)
    requires DistinctKeys(d.sdk, rs)
    ensures Dedup(d, rs).results == rs
    decreases |rs|
  {
    if rs == [] {
      return;
    }
    var init, r := rs[..|rs| - 1], rs[|rs| - 1];
    DistinctKeysSplit(d.sdk, rs);
    DedupDistinctIsIdentity(d, init);
    DedupAppendsNewKey(d, rs);
    LastSplit(rs);
  }

  lemma LastSplit<T>(s: seq<T>)
    requires |s| > 0
    ensures s[..|s| - 1] + [s[|s| - 1]] == s
  {
  }

  /** A record whose key has not occurred before is appended. */
  lemma DedupAppendsNewKey(d: Device, rs: seq<ScanRecord>)
    requires |rs| > 0
    requires Key(d.sdk, rs[|rs| - 1]) !in KeySet(d.sdk, rs[..|rs| - 1])
    ensures Dedup(d, rs).results == Dedup(d, rs[..|rs| - 1]).results + [rs[|rs| - 1]]
  {
  }

  /** No two records of `rs` share a key. */
  ghost predicate DistinctKeys(sdk: int, rs: seq<ScanRecord>) {
    forall i, j :: 0 <= i < j < |rs| ==> Key(sdk, rs[i]) != Key(sdk, rs[j])
  }

  lemma DistinctKeysSplit(sdk: int, rs: seq<ScanRecord>)
    requires |rs| > 0 && DistinctKeys(sdk, rs)
    ensures DistinctKeys(sdk, rs[..|rs| - 1])
    ensures Key(sdk, rs[|rs| - 1]) !in KeySet(sdk, rs[..|rs| - 1])
  {
    var init := rs[..|rs| - 1];
    assert forall i :: 0 <= i < |init| ==> init[i] == rs[i];
  }

  /** The key is not injective: a space inside an SSID lets two different
      networks share a key, and only one of them survives. */
  lemma SpaceInSsidMergesNetworks(d: Device)
    requires d.sdk < TIRAMISU
    ensures var a := ScanRecord(None, Some("a b"), "", "c", -50);
      var b := ScanRecord(None, Some("a"), "", "b c", -60);
      a != b && Key(d.sdk, a) == Key(d.sdk, b) && |Dedup(d, [a, b]).results| == 1
  {
    var a := ScanRecord(None, Some("a b"), "", "c", -50);
    var b := ScanRecord(None, Some("a"), "", "b c", -60);
    assert [a, b][..1] == [a];
    assert Key(d.sdk, a) == "a b c" == Key(d.sdk, b);
  }

  lemma SpaceAfter(s: string, c: string)
    ensures (s + " " + c)[|s|] == ' '
  {
  }

  /** With no space in either capability string (as platform capability
      strings are written), equal keys mean equal SSID text and equal
      capabilities. */
  lemma KeyInjectiveWithoutSpaces(sdk: int, a: ScanRecord, b: ScanRecord)
    requires forall i :: 0 <= i < |a.capabilities| ==> a.capabilities[i] != ' '
    requires forall i :: 0 <= i < |b.capabilities| ==> b.capabilities[i] != ' '
    requires Key(sdk, a) == Key(sdk, b)
    ensures Str(RawSsid(sdk, a)) == Str(RawSsid(sdk, b))
    ensures a.capabilities == b.capabilities
  {
    var s1, c1 := Str(RawSsid(sdk, a)), a.capabilities;
    var s2, c2 := Str(RawSsid(sdk, b)), b.capabilities;
    var key := Key(sdk, a);
    if |c1| < |c2| {
      SpaceAfter(s1, c1);
      assert false;
    } else if |c2| < |c1| {
      SpaceAfter(s2, c2);
      assert false;
    } else {
      assert s1 == key[..|s1|] == s2;
      assert c1 == key[|s1| + 1..] == c2;
    }
  }
}

=== FILE: network_callback.dfy ===
/** `NetworkCallbackImpl`: of the `ConnectivityManager.NetworkCallback`
    methods it overrides, only `onCapabilitiesChanged` fires a callback. */
module NetworkCallback {
  import opened Nullable
  import opened Platform

  /** The parts of `NetworkCapabilities` the callback reads. */
  datatype Capabilities = Capabilities(
    validated: bool,
    wifiTransport: bool,
    cellularTransport: bool,
    transportInfo: Option<WifiInfo>)

  /** The overridden methods, as events. */
  datatype NetworkEvent =
    | Available
    | Lost
    | CapabilitiesChanged(caps: Capabilities)
    | LinkPropertiesChanged

  /** A constructor callback being invoked. */
  datatype NetFired = WifiConnected(info: Option<WifiInfo>) | CellularConnected

  /** The callbacks an event fires. */
  function OnNetworkEvent(sdk: int, e: NetworkEvent): (f: seq<NetFired>)
    ensures |f| <= 1
    ensures f != [] ==> e.CapabilitiesChanged? && e.caps.validated
    ensures f != [] && f[0].WifiConnected? <==> e.CapabilitiesChanged? && e.caps.validated && e.caps.wifiTransport
    ensures f != [] && f[0].CellularConnected? <==>
      e.CapabilitiesChanged? && e.caps.validated && !e.caps.wifiTransport && e.caps.cellularTransport
    ensures f != [] && f[0].WifiConnected? ==>
      f[0].info == (if sdk >= Q then e.caps.transportInfo else None)
  {
    match e
    case CapabilitiesChanged(caps) =>
      if !caps.validated then []
      else if caps.wifiTransport then [WifiConnected(if sdk >= Q then caps.transportInfo else None)]
      else if caps.cellularTransport then [CellularConnected]
      else []
    case _ => []
  }

  /** Wi-Fi wins over cellular when a validated network has both. */
  lemma WifiBeforeCellular(sdk: int, info: Option<WifiInfo>)
    ensures OnNetworkEvent(sdk, CapabilitiesChanged(Capabilities(true, true, true, info))) ==
      [WifiConnected(if sdk >= Q then info else None)]
  {
  }
}

=== FILE: nullable.dfy ===
/** Kotlin's nullable values: `T?` is `Option<T>`, and the text Kotlin produces
    when a nullable string is concatenated or appended. */
module Nullable {

  /** A value that may be null. */
  datatype Option<+T> = None | Some(value: T) {

    /** The value, or `default` when null (Kotlin's `?:`). */
    function GetOr(default: T): T {
      match this
      case Some(v) => v
      case None => default
    }
  }

  /** The text of a nullable string in a string template or `+`:
      Kotlin writes a null reference as the four letters "null". */
  function Str(s: Option<string>): string {
    s.GetOr("null")
  }

  /** Writing a nullable string as text loses exactly one distinction: null
      and the string "null" read the same, and nothing else collides. */
  lemma StrLosesOnlyNull(a: Option<string>, b: Option<string>)
    ensures Str(a) == Str(b) <==>
      a == b || (a == None && b == Some("null")) || (a == Some("null") && b == None)
  {
  }
}

=== FILE: platform.dfy ===
/** What the app reads from the Android platform, reduced to values:
    API levels, scan records, connection info, and the two signal-level
    functions of `WifiManager`, which are platform code and stay abstract. */
module Platform {
  import opened Nullable

  /** `Build.VERSION_CODES.Q`, `R` and `TIRAMISU`. */
  const Q := 29
  const R := 30
  const TIRAMISU := 33

  /** One `ScanResult` as the platform delivers it. `wifiSsid` is the text
      of the `wifiSsid` object (null when that object is null), `legacySsid`
      the deprecated `SSID` field; `level` is the raw signal in dBm. */
  datatype ScanRecord = ScanRecord(
    wifiSsid: Option<string>,
    legacySsid: Option<string>,
    bssid: string,
    capabilities: string,
    level: int)

  /** `WifiInfo`, of which the app reads only the (possibly quoted) SSID. */
  datatype WifiInfo = WifiInfo(ssid: Option<string>)

  /** Which system services the app obtained: `WifiManager` and
      `ConnectivityManager` (either may be null). */
  datatype Services = Services(wifiManager: bool, connectivityManager: bool)

  /** The device the code runs on: its API level, the instance
      `calculateSignalLevel(rssi)` and the static
      `calculateSignalLevel(rssi, 5)`. */
  datatype Device = Device(sdk: int, signalLevel: int -> int, signalLevel5: int -> int) {

    /** Both signal-level functions never rank a weaker signal above a
        stronger one. */
    ghost predicate Valid() {
      Monotone(signalLevel) && Monotone(signalLevel5)
    }
  }

  ghost predicate Monotone(f: int -> int) {
    forall a, b :: a <= b ==> f(a) <= f(b)
  }

  /** The SSID the reducer reads: `wifiSsid?.toString()` from API 33 on,
      `SSID` below. */
  function RawSsid(sdk: int, r: ScanRecord): Option<string> {
    if sdk >= TIRAMISU then r.wifiSsid else r.legacySsid
  }

  /** The `getSsid()` extension on a nullable `ScanResult`: "" for a null
      receiver; from API 33 on `wifiSsid.toString()` without a safe call,
      so a null object gives "null"; below API 33 the `SSID` field, with
      null turned into "". */
  function DisplaySsid(sdk: int, r: Option<ScanRecord>): (s: string)
    ensures r.None? ==> s == ""
    ensures r.Some? && RawSsid(sdk, r.value).Some? ==> s == RawSsid(sdk, r.value).value
    ensures r.Some? && RawSsid(sdk, r.value).None? ==> s == (if sdk >= TIRAMISU then "null" else "")
  {
    match r
    case None => ""
    case Some(rec) =>
      if sdk >= TIRAMISU then Str(rec.wifiSsid) else rec.legacySsid.GetOr("")
  }
}

=== FILE: ranking.dfy ===
/** The last stage of `WifiManagerImpl.scanResults()`: `sortWith` under a
    comparator that puts stronger signal buckets first and, within a
    bucket, orders SSIDs alphabetically ignoring case. */
module Ranking {
  import opened Nullable
  import opened Text
  import opened Platform

  /** The SSID the comparator reads: `wifiSsid?.toString() ?: ""` from
      API 33 on, `SSID ?: ""` below. */
  function SortName(sdk: int, r: ScanRecord): string {
    RawSsid(sdk, r).GetOr("")
  }

  /** The bucket the comparator reads: static `calculateSignalLevel(level, 5)`. */
  function Bucket(d: Device, r: ScanRecord): int {
    d.signalLevel5(r.level)
  }

  /** The comparator returns a non-positive value for `(a, b)`: on equal
      buckets the SSIDs are compared ignoring case; otherwise the RAW levels
      are compared, stronger first. */
  predicate Precedes(d: Device, a: ScanRecord, b: ScanRecord) {
    if Bucket(d, a) == Bucket(d, b) then LeIgnoreCase(SortName(d.sdk, a), SortName(d.sdk, b))
    else b.level <= a.level
  }

  /** With a monotone bucket function, comparing raw levels on different
      buckets is the same as comparing the buckets: the comparator is
      "bucket descending, then SSID ignoring case". */
  lemma PrecedesByBucket(d: Device, a: ScanRecord, b: ScanRecord)
    requires Monotone(d.signalLevel5)
    ensures Precedes(d, a, b) <==>
      Bucket(d, a) > Bucket(d, b) ||
      (Bucket(d, a) == Bucket(d, b) && LeIgnoreCase(SortName(d.sdk, a), SortName(d.sdk, b)))
  {
    if Bucket(d, a) != Bucket(d, b) {
      if b.level <= a.level {
        assert d.signalLevel5(b.level) <= d.signalLevel5(a.level);
      } else {
        assert d.signalLevel5(a.level) <= d.signalLevel5(b.level);
      }
    }
  }

  lemma PrecedesTotal(d: Device, a: ScanRecord, b: ScanRecord)
    ensures Precedes(d, a, b) || Precedes(d, b, a)
  {
    LexLeTotal(Lower(SortName(d.sdk, a)), Lower(SortName(d.sdk, b)));
  }

  lemma PrecedesReflexive(d: Device, a: ScanRecord)
    ensures Precedes(d, a, a)
  {
    LexLeReflexive(Lower(SortName(d.sdk, a)));
  }

  lemma PrecedesTransitive(d: Device, a: ScanRecord, b: ScanRecord, c: ScanRecord)
    requires Monotone(d.signalLevel5)
    requires Precedes(d, a, b) && Precedes(d, b, c)
    ensures Precedes(d, a, c)
  {
    PrecedesByBucket(d, a, b);
    PrecedesByBucket(d, b, c);
    PrecedesByBucket(d, a, c);
    if Bucket(d, a) == Bucket(d, b) == Bucket(d, c) {
      LexLeTransitive(Lower(SortName(d.sdk, a)), Lower(SortName(d.sdk, b)), Lower(SortName(d.sdk, c)));
    }
  }

  /** `a` and `b` compare as equal: neither goes before the other. */
  predicate SameRank(d: Device, a: ScanRecord, b: ScanRecord) {
    Precedes(d, a, b) && Precedes(d, b, a)
  }

  /** Every adjacent pair is in comparator order. */
  predicate Sorted(d: Device, s: seq<ScanRecord>) {
    forall i :: 0 <= i < |s| - 1 ==> Precedes(d, s[i], s[i + 1])
  }

  /** The records of `s` that compare equal to `e`, in their order in `s`. */
  function Peers(d: Device, s: seq<ScanRecord>, e: ScanRecord): (p: seq<ScanRecord>)
    ensures |p| <= |s|
    ensures forall x :: x in p ==> x in s && SameRank(d, x, e)
    ensures forall x :: x in s && SameRank(d, x, e) ==> x in p
    decreases |s|
  {
    if s == [] then []
    else (if SameRank(d, s[0], e) then [s[0]] else []) + Peers(d, s[1..], e)
  }

  /** Place `x` before the first record it may precede. */
  function Insert(d: Device, x: ScanRecord, s: seq<ScanRecord>): (r: seq<ScanRecord>)
    ensures multiset(r) == multiset(s) + multiset{x}
    ensures |r| == |s| + 1
    ensures r[0] == x || (|s| > 0 && r[0] == s[0])
    decreases |s|
  {
    if s == [] || Precedes(d, x, s[0]) then [x] + s
    else
      assert s == [s[0]] + s[1..];
      [s[0]] + Insert(d, x, s[1..])
  }

  /** A stable sort: each record is inserted, from the back of the list to
      the front, ahead of everything it may precede. */
  function Sort(d: Device, s: seq<ScanRecord>): (r: seq<ScanRecord>)
    ensures multiset(r) == multiset(s)
    ensures |r| == |s|
    decreases |s|
  {
    if s == [] then []
    else
      assert s == [s[0]] + s[1..];
      Insert(d, s[0], Sort(d, s[1..]))
  }

  lemma {:induction false} InsertSorted(d: Device, x: ScanRecord, s: seq<ScanRecord>)
    requires Monotone(d.signalLevel5)
    requires Sorted(d, s)
    ensures Sorted(d, Insert(d, x, s))
    decreases |s|
  {
    if s == [] || Precedes(d, x, s[0]) {
      return;
    }
    PrecedesTotal(d, x, s[0]);
    InsertSorted(d, x, s[1..]);
  }

  /** The output of the sort is in comparator order. */
  lemma {:induction false} SortSorted(d: Device, s: seq<ScanRecord>)
    requires Monotone(d.signalLevel5)
    ensures Sorted(d, Sort(d, s))
    decreases |s|
  {
    if s != [] {
      SortSorted(d, s[1..]);
      InsertSorted(d, s[0], Sort(d, s[1..]));
    }
  }

  /** Inserting `x` keeps the order among records that compare equal: no
      record ranked equal to `x`'s peers is jumped over. */
  lemma {:induction false} InsertStable(d: Device, x: ScanRecord, s: seq<ScanRecord>, e: ScanRecord)
    requires Monotone(d.signalLevel5)
    ensures Peers(d, Insert(d, x, s), e) == Peers(d, [x] + s, e)
    decreases |s|
  {
    if s == [] || Precedes(d, x, s[0]) {
      return;
    }
    var y, rest := s[0], s[1..];
    var hx := if SameRank(d, x, e) then [x] else [];
    var hy := if SameRank(d, y, e) then [y] else [];
    if hx != [] && hy != [] {
      PrecedesTransitive(d, x, e, y);
      assert false;
    }
    assert s == [y] + rest;
    calc {
      Peers(d, Insert(d, x, s), e);
      Peers(d, [y] + Insert(d, x, rest), e);
      { PeersCons(d, y, Insert(d, x, rest), e); }
      hy + Peers(d, Insert(d, x, rest), e);
      { InsertStable(d, x, rest, e); }
      hy + Peers(d, [x] + rest, e);
      { PeersCons(d, x, rest, e); }
      hy + (hx + Peers(d, rest, e));
      hx + (hy + Peers(d, rest, e));
      { PeersCons(d, y, rest, e); }
      hx + Peers(d, s, e);
      { PeersCons(d, x, s, e); }
      Peers(d, [x] + s, e);
    }
  }

  /** The peers of a list with a given head. */
  lemma PeersCons(d: Device, a: ScanRecord, s: seq<ScanRecord>, e: ScanRecord)
    ensures Peers(d, [a] + s, e) == (if SameRank(d, a, e) then [a] else []) + Peers(d, s, e)
  {
    assert ([a] + s)[1..] == s;
  }

  /** The sort is stable: records that compare equal keep their input order. */
  lemma {:induction false} SortStable(d: Device, s: seq<ScanRecord>, e: ScanRecord)
    requires Monotone(d.signalLevel5)
    ensures Peers(d, Sort(d, s), e) == Peers(d, s, e)
    decreases |s|
  {
    if s != [] {
      SortStable(d, s[1..], e);
      InsertStable(d, s[0], Sort(d, s[1..]), e);
      assert ([s[0]] + Sort(d, s[1..]))[1..] == Sort(d, s[1..]);
    }
  }

  /** The head of a sorted list may precede every record in it. */
  lemma {:induction false} SortedHeadFirst(d: Device, s: seq<ScanRecord>, j: int)
    requires Monotone(d.signalLevel5)
    requires Sorted(d, s) && 0 <= j < |s|
    ensures Precedes(d, s[0], s[j])
    decreases j
  {
    if j == 0 {
      PrecedesReflexive(d, s[0]);
    } else {
      SortedHeadFirst(d, s, j - 1);
      PrecedesTransitive(d, s[0], s[j - 1], s[j]);
    }
  }

  /** Every rank holds the same records, in the same order, in `a` and `b`. */
  ghost predicate SamePeers(d: Device, a: seq<ScanRecord>, b: seq<ScanRecord>) {
    forall e :: Peers(d, a, e) == Peers(d, b, e)
  }

  /** The heads of two sorted lists with the same peers compare equal. */
  lemma HeadsSameRank(d: Device, a: seq<ScanRecord>, b: seq<ScanRecord>)
    requires Monotone(d.signalLevel5)
    requires Sorted(d, a) && Sorted(d, b) && SamePeers(d, a, b)
    requires a != [] && b != []
    ensures SameRank(d, a[0], b[0])
  {
    var x, y := a[0], b[0];
    PrecedesReflexive(d, y);
    assert y in Peers(d, b, y);
    assert y in Peers(d, a, y);
    var i :| 0 <= i < |a| && a[i] == y;
    SortedHeadFirst(d, a, i);
    PrecedesReflexive(d, x);
    assert x in Peers(d, a, x);
    assert x in Peers(d, b, x);
    var j :| 0 <= j < |b| && b[j] == x;
    SortedHeadFirst(d, b, j);
  }

  /** A non-empty list has a record of its own head's rank. */
  lemma HeadIsOwnPeer(d: Device, s: seq<ScanRecord>)
    requires s != []
    ensures Peers(d, s, s[0]) != []
  {
    PrecedesReflexive(d, s[0]);
  }

  /** Equal heads and the same peers leave the same peers in the tails. */
  lemma TailsSamePeers(d: Device, a: seq<ScanRecord>, b: seq<ScanRecord>)
    requires a != [] && b != [] && a[0] == b[0]
    requires SamePeers(d, a, b)
    ensures SamePeers(d, a[1..], b[1..])
  {
    forall e
      ensures Peers(d, a[1..], e) == Peers(d, b[1..], e)
    {
      var p := if SameRank(d, a[0], e) then [a[0]] else [];
      assert Peers(d, a, e) == p + Peers(d, a[1..], e);
      assert Peers(d, b, e) == p + Peers(d, b[1..], e);
      assert Peers(d, a[1..], e) == Peers(d, a, e)[|p|..];
      assert Peers(d, b[1..], e) == Peers(d, b, e)[|p|..];
    }
  }

  /** Two sorted lists with the same records in the same order within each
      rank are equal: a stable sort has exactly one possible output, so
      `sortWith` (stable, whatever algorithm it uses) returns what `Sort`
      returns. */
  lemma {:induction false} StableSortUnique(d: Device, a: seq<ScanRecord>, b: seq<ScanRecord>)
    requires Monotone(d.signalLevel5)
    requires Sorted(d, a) && Sorted(d, b)
    requires SamePeers(d, a, b)
    ensures a == b
    decreases |a|
  {
    if a == [] || b == [] {
      if a != [] {
        HeadIsOwnPeer(d, a);
        assert false;
      } else if b != [] {
        HeadIsOwnPeer(d, b);
        assert false;
      }
      return;
    }
    var x, y := a[0], b[0];
    HeadsSameRank(d, a, b);
    PrecedesReflexive(d, x);
    assert Peers(d, a, x) == Peers(d, b, x);
    assert Peers(d, a, x)[0] == x;
    assert Peers(d, b, x)[0] == y;
    TailsSamePeers(d, a, b);
    StableSortUnique(d, a[1..], b[1..]);
    assert a == [x] + a[1..];
    assert b == [y] + b[1..];
  }

  /** Sorting an already sorted list leaves it unchanged. */
  lemma SortSortedIsIdentity(d: Device, s: seq<ScanRecord>)
    requires Monotone(d.signalLevel5)
    requires Sorted(d, s)
    ensures Sort(d, s) == s
  {
    SortSorted(d, s);
    forall e
      ensures Peers(d, Sort(d, s), e) == Peers(d, s, e)
    {
      SortStable(d, s, e);
    }
    StableSortUnique(d, Sort(d, s), s);
  }
}

=== FILE: receiver.dfy ===
/** `WifiBroadcastReceiver.onReceive`: an intent is dispatched twice, once
    on its `wifi_state` extra and once on its action, and each dispatch
    fires at most one callback. */
module Receiver {
  import opened Nullable

  /** `WifiManager.WIFI_STATE_DISABLED` and `WIFI_STATE_ENABLED`. */
  const WIFI_STATE_DISABLED := 1
  const WIFI_STATE_ENABLED := 3

  /** `WifiManager.SCAN_RESULTS_AVAILABLE_ACTION` and
      `ACTION_WIFI_NETWORK_SUGGESTION_POST_CONNECTION`. */
  const SCAN_RESULTS_AVAILABLE_ACTION := "android.net.wifi.SCAN_RESULTS"
  const NETWORK_SUGGESTION_POST_CONNECTION_ACTION := "android.net.wifi.action.WIFI_NETWORK_SUGGESTION_POST_CONNECTION"

  /** The parts of an `Intent` the receiver reads: its action and its
      `wifi_state` integer extra. */
  datatype Intent = Intent(action: Option<string>, wifiState: Option<int>)

  /** A constructor callback of the receiver being invoked. */
  datatype Fired = EnabledWifi(enabled: bool) | ScanResultsAvailable | WifiConnect

  /** `getIntExtra(EXTRA_WIFI_STATE, 0)`: a missing extra reads as 0. */
  function WifiStateExtra(i: Intent): int {
    i.wifiState.GetOr(0)
  }

  /** The first `when`, on the wifi state. */
  function StateDispatch(intent: Option<Intent>): (f: seq<Fired>)
    ensures |f| <= 1
    ensures f == [EnabledWifi(true)] <==> intent.Some? && WifiStateExtra(intent.value) == WIFI_STATE_ENABLED
    ensures f == [EnabledWifi(false)] <==> intent.Some? && WifiStateExtra(intent.value) == WIFI_STATE_DISABLED
  {
    match intent
    case None => []
    case Some(i) =>
      if WifiStateExtra(i) == WIFI_STATE_ENABLED then [EnabledWifi(true)]
      else if WifiStateExtra(i) == WIFI_STATE_DISABLED then [EnabledWifi(false)]
      else []
  }

  /** The second `when`, on the action. */
  function ActionDispatch(intent: Option<Intent>): (f: seq<Fired>)
    ensures |f| <= 1
    ensures f == [ScanResultsAvailable] <==> intent.Some? && intent.value.action == Some(SCAN_RESULTS_AVAILABLE_ACTION)
    ensures f == [WifiConnect] <==> intent.Some? && intent.value.action == Some(NETWORK_SUGGESTION_POST_CONNECTION_ACTION)
  {
    match intent
    case None => []
    case Some(i) =>
      if i.action == Some(SCAN_RESULTS_AVAILABLE_ACTION) then [ScanResultsAvailable]
      else if i.action == Some(NETWORK_SUGGESTION_POST_CONNECTION_ACTION) then [WifiConnect]
      else []
  }

  /** `onReceive(context, intent)`: the callbacks fired, in order. */
  function OnReceive(intent: Option<Intent>): (f: seq<Fired>)
    ensures intent.None? ==> f == []
    ensures |f| <= 2
    ensures forall k, l :: 0 <= k < l < |f| ==> f[k] != f[l]
    ensures forall k :: 0 <= k < |f| && f[k].EnabledWifi? ==> k == 0
    ensures EnabledWifi(true) in f <==> intent.Some? && WifiStateExtra(intent.value) == WIFI_STATE_ENABLED
    ensures EnabledWifi(false) in f <==> intent.Some? && WifiStateExtra(intent.value) == WIFI_STATE_DISABLED
    ensures ScanResultsAvailable in f <==> intent.Some? && intent.value.action == Some(SCAN_RESULTS_AVAILABLE_ACTION)
    ensures WifiConnect in f <==> intent.Some? && intent.value.action == Some(NETWORK_SUGGESTION_POST_CONNECTION_ACTION)
  {
    StateDispatch(intent) + ActionDispatch(intent)
  }

  /** The two dispatches are independent: an intent fires what an intent
      with only its extra fires, followed by what an intent with only its
      action fires. */
  lemma DispatchesIndependent(action: Option<string>, state: Option<int>)
    ensures OnReceive(Some(Intent(action, state))) ==
      OnReceive(Some(Intent(None, state))) + OnReceive(Some(Intent(action, None)))
  {
    assert OnReceive(Some(Intent(None, state))) == StateDispatch(Some(Intent(action, state)));
    assert OnReceive(Some(Intent(action, None))) == ActionDispatch(Some(Intent(action, state)));
  }

  /** A state other than ENABLED or DISABLED, a missing extra among them,
      fires no enable callback. */
  lemma OtherStatesFireNothing(action: Option<string>, state: Option<int>)
    requires state.GetOr(0) != WIFI_STATE_ENABLED && state.GetOr(0) != WIFI_STATE_DISABLED
    ensures forall f :: f in OnReceive(Some(Intent(action, state))) ==> !f.EnabledWifi?
  {
  }

  /** A wifi-state broadcast with the extra ENABLED fires exactly
      `onEnabledWifi(true)`. */
  lemma EnabledBroadcast()
    ensures OnReceive(Some(Intent(Some("android.net.wifi.WIFI_STATE_CHANGED"), Some(WIFI_STATE_ENABLED)))) == [EnabledWifi(true)]
  {
  }
}

=== FILE: scan_results.dfy ===
/** `WifiManagerImpl.scanResults()` as a whole: the platform's list (null
    when the manager or the list is null) filtered, deduplicated and
    ranked. */
module Scanning {
  import opened Nullable
  import opened Platform
  import opened Deduplication
  import opened Ranking

  function ScanResults(d: Device, list: Option<seq<ScanRecord>>): (out: seq<ScanRecord>)
    ensures list.None? ==> out == []
    ensures |out| <= |list.GetOr([])|
    ensures forall x :: x in out ==> x in list.GetOr([]) && Named(d.sdk, x)
  {
    var st := Dedup(d, KeepNamed(d.sdk, list.GetOr([])));
    assert forall x :: x in Sort(d, st.results) ==> x in multiset(st.results);
    Sort(d, st.results)
  }

  /** The three readings of a record's SSID (the reducer's raw SSID, the
      comparator's name, and the displayed `getSsid()`) agree on every
      record that survives the filter, and the key starts with it. They part
      only on a null SSID: the key then starts with "null", the comparator
      reads "", and the display reads "null" from API 33 on and "" below. */
  lemma SsidReadingsAgree(sdk: int, r: ScanRecord)
    ensures Named(sdk, r) ==>
      && RawSsid(sdk, r) == Some(DisplaySsid(sdk, Some(r)))
      && SortName(sdk, r) == DisplaySsid(sdk, Some(r)) != ""
      && Key(sdk, r) == DisplaySsid(sdk, Some(r)) + " " + r.capabilities
    ensures RawSsid(sdk, r).None? ==>
      && Key(sdk, r) == "null " + r.capabilities
      && SortName(sdk, r) == ""
      && DisplaySsid(sdk, Some(r)) == (if sdk >= TIRAMISU then "null" else "")
  {
  }

  /** Inserting a record whose key is new keeps the keys distinct. */
  lemma {:induction false} InsertKeepsDistinctKeys(d: Device, x: ScanRecord, s: seq<ScanRecord>)
    requires DistinctKeys(d.sdk, s)
    requires forall y :: y in s ==> Key(d.sdk, y) != Key(d.sdk, x)
    ensures DistinctKeys(d.sdk, Insert(d, x, s))
    decreases |s|
  {
    if s == [] || Precedes(d, x, s[0]) {
      return;
    }
    InsertKeepsDistinctKeys(d, x, s[1..]);
    var r := Insert(d, x, s[1..]);
    forall y | y in r
      ensures Key(d.sdk, y) != Key(d.sdk, s[0])
    {
      assert y in multiset(r);
    }
  }

  /** Sorting never puts two records with one key into the list. */
  lemma {:induction false} SortKeepsDistinctKeys(d: Device, s: seq<ScanRecord>)
    requires DistinctKeys(d.sdk, s)
    ensures DistinctKeys(d.sdk, Sort(d, s))
    decreases |s|
  {
    if s == [] {
      return;
    }
    var tail := s[1..];
    assert DistinctKeys(d.sdk, tail) by {
      assert forall i :: 0 <= i < |tail| ==> tail[i] == s[i + 1];
    }
    SortKeepsDistinctKeys(d, tail);
    forall y | y in Sort(d, tail)
      ensures Key(d.sdk, y) != Key(d.sdk, s[0])
    {
      assert y in multiset(Sort(d, tail));
      var i :| 0 <= i < |tail| && tail[i] == y;
      assert s[i + 1] == y;
    }
    InsertKeepsDistinctKeys(d, s[0], Sort(d, tail));
  }

  /** The list holds at most one record per key `ssid + " " + capabilities`. */
  lemma ScanResultsOnePerKey(d: Device, list: Option<seq<ScanRecord>>)
    ensures DistinctKeys(d.sdk, ScanResults(d, list))
  {
    var st := Dedup(d, KeepNamed(d.sdk, list.GetOr([])));
    DedupKeysInFirstOrder(d, KeepNamed(d.sdk, list.GetOr([])));
    SortKeepsDistinctKeys(d, st.results);
  }

  /** The list is ranked: of two neighbours, the first is in a higher
      five-level bucket, or in the same bucket with an SSID that is not
      greater ignoring case. */
  lemma ScanResultsRanked(d: Device, list: Option<seq<ScanRecord>>)
    requires d.Valid()
    ensures var out := ScanResults(d, list);
      forall i :: 0 <= i < |out| - 1 ==>
        Bucket(d, out[i]) > Bucket(d, out[i + 1]) ||
        (Bucket(d, out[i]) == Bucket(d, out[i + 1]) &&
         Text.LeIgnoreCase(SortName(d.sdk, out[i]), SortName(d.sdk, out[i + 1])))
  {
    var out := ScanResults(d, list);
    SortSorted(d, Dedup(d, KeepNamed(d.sdk, list.GetOr([]))).results);
    forall i | 0 <= i < |out| - 1
      ensures Bucket(d, out[i]) > Bucket(d, out[i + 1]) ||
        (Bucket(d, out[i]) == Bucket(d, out[i + 1]) &&
         Text.LeIgnoreCase(SortName(d.sdk, out[i]), SortName(d.sdk, out[i + 1])))
    {
      PrecedesByBucket(d, out[i], out[i + 1]);
    }
  }

  /** Every named record of the platform list is represented: the list has
      a record with its key that is at least as strong. Records with an
      empty capability string are no exception. */
  lemma ScanResultsCoverEveryKey(d: Device, list: Option<seq<ScanRecord>>, r: ScanRecord)
    requires list.Some? && r in list.value && Named(d.sdk, r)
    ensures exists y :: y in ScanResults(d, list) && Key(d.sdk, y) == Key(d.sdk, r) && Strength(d, r) <= Strength(d, y)
  {
    var named := KeepNamed(d.sdk, list.value);
    var st := Dedup(d, named);
    DedupKeepsStrongest(d, named);
    var j :| 0 <= j < |named| && named[j] == r;
    var y := st.results[st.index[Key(d.sdk, r)]];
    assert y in multiset(st.results);
    assert y in ScanResults(d, list);
  }

  /** Running the reducer on its own output changes nothing. */
  lemma ScanResultsIdempotent(d: Device, list: Option<seq<ScanRecord>>)
    requires d.Valid()
    ensures ScanResults(d, Some(ScanResults(d, list))) == ScanResults(d, list)
  {
    var out := ScanResults(d, list);
    assert KeepNamed(d.sdk, out) == out;
    ScanResultsOnePerKey(d, list);
    DedupDistinctIsIdentity(d, out);
    SortSorted(d, Dedup(d, KeepNamed(d.sdk, list.GetOr([]))).results);
    SortSortedIsIdentity(d, out);
  }
}

=== FILE: screen.dfy ===
/** The decisions `MainActivity` makes around its composables: which scan
    result is shown as connected, which are listed as available, what a tap
    on a listed network does, and what confirming the password dialog does. */
module Screen {
  import opened Nullable
  import opened Text
  import opened Platform
  import opened Cipher
  import opened Connection

  // ---------------------------------------------------------------------
  // Connected banner and available list

  /** `connectedWifi?.ssid?.replace("\"", "")`. */
  function ConnectedName(connected: Option<WifiInfo>): (n: Option<string>)
    ensures n.Some? <==> connected.Some? && connected.value.ssid.Some?
    ensures n.Some? ==> n.value == Remove(connected.value.ssid.value, '"')
    ensures n.Some? ==> forall i :: 0 <= i < |n.value| ==> n.value[i] != '"'
  {
    match connected
    case None => None
    case Some(info) =>
      match info.ssid
      case None => None
      case Some(s) => Some(Remove(s, '"'))
  }

  /** `it.getSsid() == name`: a non-null `String` never equals null. */
  predicate IsConnected(sdk: int, r: ScanRecord, name: Option<string>) {
    name.Some? && DisplaySsid(sdk, Some(r)) == name.value
  }

  /** The platform reports the connected SSID in quotes; once they are
      stripped it matches exactly the records displayed under the bare
      name. */
  lemma QuotedConnectionMatches(sdk: int, r: ScanRecord, name: string)
    requires forall i :: 0 <= i < |name| ==> name[i] != '"'
    ensures IsConnected(sdk, r, ConnectedName(Some(WifiInfo(Some("\"" + name + "\""))))) <==>
      DisplaySsid(sdk, Some(r)) == name
  {
    RemoveConcat("\"", name + "\"", '"');
    RemoveConcat(name, "\"", '"');
    RemoveOne('"', '"');
    assert "\"" + name + "\"" == "\"" + (name + "\"");
  }

  /** The index of the first record satisfying `IsConnected`, or `|s|`. */
  function FirstConnected(sdk: int, s: seq<ScanRecord>, name: Option<string>): (i: nat)
    ensures i <= |s|
    ensures forall j :: 0 <= j < i ==> !IsConnected(sdk, s[j], name)
    ensures i < |s| ==> IsConnected(sdk, s[i], name)
    decreases |s|
  {
    if s == [] then 0
    else if IsConnected(sdk, s[0], name) then 0
    else 1 + FirstConnected(sdk, s[1..], name)
  }

  /** `scanResults?.firstOrNull { ... }`: the record shown under the
      connected heading. */
  function Banner(sdk: int, scans: Option<seq<ScanRecord>>, connected: Option<WifiInfo>): (b: Option<ScanRecord>)
    ensures scans.None? || connected.None? ==> b.None?
    ensures b.Some? ==> b.value in scans.value && IsConnected(sdk, b.value, ConnectedName(connected))
    ensures b.None? && scans.Some? ==> forall x :: x in scans.value ==> !IsConnected(sdk, x, ConnectedName(connected))
    ensures b.Some? ==>
      exists i :: (0 <= i < |scans.value| && scans.value[i] == b.value &&
        forall j :: 0 <= j < i ==> !IsConnected(sdk, scans.value[j], ConnectedName(connected)))
  {
    match scans
    case None => None
    case Some(s) =>
      var i := FirstConnected(sdk, s, ConnectedName(connected));
      if i < |s| then Some(s[i]) else None
  }

  /** The records whose SSID differs from `name`, in order. */
  function Others(sdk: int, s: seq<ScanRecord>, name: Option<string>): (o: seq<ScanRecord>)
    ensures |o| <= |s|
    ensures forall x :: x in o <==> x in s && !IsConnected(sdk, x, name)
    decreases |s|
  {
    if s == [] then []
    else (if IsConnected(sdk, s[0], name) then [] else [s[0]]) + Others(sdk, s[1..], name)
  }

  /** `scanResults?.filter { ... }`: the list under the available heading. */
  function Available(sdk: int, scans: Option<seq<ScanRecord>>, connected: Option<WifiInfo>): (a: Option<seq<ScanRecord>>)
    ensures a.None? <==> scans.None?
    ensures a.Some? ==> forall x :: x in a.value <==> x in scans.value && !IsConnected(sdk, x, ConnectedName(connected))
  {
    match scans
    case None => None
    case Some(s) => Some(Others(sdk, s, ConnectedName(connected)))
  }

  /** The filter keeps order: it distributes over concatenation. */
  lemma {:induction false} OthersKeepOrder(sdk: int, a: seq<ScanRecord>, b: seq<ScanRecord>, name: Option<string>)
    ensures Others(sdk, a + b, name) == Others(sdk, a, name) + Others(sdk, b, name)
    decreases |a|
  {
    if a == [] {
      assert a + b == b;
    } else {
      var ab := a + b;
      assert ab[0] == a[0];
      assert ab[1..] == a[1..] + b;
      var h := if IsConnected(sdk, a[0], name) then [] else [a[0]];
      calc {
        Others(sdk, ab, name);
        h + Others(sdk, a[1..] + b, name);
        { OthersKeepOrder(sdk, a[1..], b, name); }
        h + (Others(sdk, a[1..], name) + Others(sdk, b, name));
        (h + Others(sdk, a[1..], name)) + Others(sdk, b, name);
        Others(sdk, a, name) + Others(sdk, b, name);
      }
    }
  }

  /** Without a connection every scan result is listed, in order. */
  lemma {:induction false} NoConnectionListsAll(sdk: int, s: seq<ScanRecord>)
    ensures Others(sdk, s, None) == s
    decreases |s|
  {
    if s != [] {
      NoConnectionListsAll(sdk, s[1..]);
    }
  }

  /** The two headings split the scan results: the banner record is never
      listed, and a record is listed exactly when its SSID differs from the
      banner's, so a second access point of the connected network appears
      under neither heading. */
  lemma BannerAndAvailablePartition(sdk: int, scans: seq<ScanRecord>, connected: Option<WifiInfo>)
    ensures var b := Banner(sdk, Some(scans), connected);
      var a := Available(sdk, Some(scans), connected).value;
      && (b.Some? ==> b.value !in a)
      && (b.Some? ==> forall x :: x in scans ==>
            (x in a <==> DisplaySsid(sdk, Some(x)) != DisplaySsid(sdk, Some(b.value))))
      && (b.None? ==> forall x :: x in scans ==> x in a)
  {
  }

  // ---------------------------------------------------------------------
  // Tapping a network and confirming the dialog

  /** What a UI handler asks `WifiManagerImpl` to do. */
  datatype UiAction =
    | SuggestNetwork(scan: Option<ScanRecord>, password: Option<string>, suggestion: Option<Suggestion>)
    | AddNetwork(config: WifiConfig)
    | NoAction

  /** The screen's own state: `selectedWifi` and `showConnectWifiDialog`. */
  datatype Ui = Ui(selected: Option<ScanRecord>, dialogShown: bool)

  /** A handler's effect on the screen state and the action it issues. */
  datatype Reaction = Reaction(ui: Ui, action: UiAction)

  /** `getNetworkSuggestions()?.filter { it.ssid == name }?.firstOrNull()`
      once the list is known to be non-null. */
  function FirstWithSsid(list: seq<Suggestion>, name: string): (s: Option<Suggestion>)
    ensures s.Some? ==> s.value in list && s.value.ssid == name
    ensures s.Some? ==>
      exists i :: (0 <= i < |list| && list[i] == s.value &&
        forall j :: 0 <= j < i ==> list[j].ssid != name)
    ensures s.None? ==> forall x :: x in list ==> x.ssid != name
    decreases |list|
  {
    if list == [] then None
    else if list[0].ssid == name then Some(list[0])
    else
      var r := FirstWithSsid(list[1..], name);
      assert r.Some? ==> exists i :: (0 <= i < |list| && list[i] == r.value &&
        forall j :: 0 <= j < i ==> list[j].ssid != name) by {
        if r.Some? {
          var i :| 0 <= i < |list[1..]| && list[1..][i] == r.value &&
            forall j :: 0 <= j < i ==> list[1..][j].ssid != name;
          assert list[i + 1] == r.value;
          assert forall j :: 0 <= j < i + 1 ==> list[j].ssid != name by {
            forall j | 0 <= j < i + 1
              ensures list[j].ssid != name
            {
              if j > 0 {
                assert list[j] == list[1..][j - 1];
              }
            }
          }
        }
      }
      r
  }

  /** `selectedWifi?.getWifiCipher() == NO_PASSWORD`: the safe call makes a
      null selection compare as null, so only a record can take the open
      path. */
  predicate TapsOpen(tapped: Option<ScanRecord>) {
    tapped.Some? && Classify(tapped.value.capabilities) == NoPassword
  }

  /** The click handler of a listed network, as written. `stored` is what
      `getNetworkSuggestions()` answers if it is asked. */
  function OnTap(sdk: int, ui: Ui, tapped: Option<ScanRecord>, stored: Option<seq<Suggestion>>): (r: Reaction)
    ensures r.ui.selected == tapped
    ensures r.ui.dialogShown <==> ui.dialogShown || (!TapsOpen(tapped) && (sdk < R || stored.None?))
    ensures r.action.SuggestNetwork? ==> r.action.scan == tapped && r.action.password.None?
  {
    if TapsOpen(tapped) then
      if sdk >= Q then Reaction(ui.(selected := tapped), SuggestNetwork(tapped, None, None))
      else Reaction(ui.(selected := tapped), AddNetwork(CreateWifiConfiguration(Some(DisplaySsid(sdk, tapped)), None, Some(NoPassword))))
    else if sdk >= R then
      match stored
      case Some(list) =>
        Reaction(ui.(selected := tapped), SuggestNetwork(tapped, None, FirstWithSsid(list, DisplaySsid(sdk, tapped))))
      case None => Reaction(Ui(tapped, true), NoAction)
    else Reaction(Ui(tapped, true), NoAction)
  }

  /** Tapping an open network suggests it without a password from API 29
      on, and adds an open legacy configuration below; no dialog either way. */
  lemma TapOpenNetwork(sdk: int, ui: Ui, tapped: ScanRecord, stored: Option<seq<Suggestion>>)
    requires Classify(tapped.capabilities) == NoPassword
    ensures var r := OnTap(sdk, ui, Some(tapped), stored);
      && r.ui.dialogShown == ui.dialogShown
      && (sdk >= Q ==> r.action == SuggestNetwork(Some(tapped), None, None))
      && (sdk < Q ==> r.action == AddNetwork(CreateWifiConfiguration(Some(DisplaySsid(sdk, Some(tapped))), None, Some(NoPassword))))
  {
  }

  /** On API 30 and later, tapping a secured or unclassified network opens
      the dialog only when the suggestion query itself answers null; any
      non-null answer, even one without a match, goes straight to
      `addNetworkSuggestion` with no password. */
  lemma TapSecuredFromR(sdk: int, ui: Ui, tapped: ScanRecord, stored: Option<seq<Suggestion>>)
    requires sdk >= R && Classify(tapped.capabilities) != NoPassword
    ensures var r := OnTap(sdk, ui, Some(tapped), stored);
      && (stored.None? ==> r.ui.dialogShown && r.action == NoAction)
      && (stored.Some? ==>
            (r.ui.dialogShown == ui.dialogShown &&
             r.action == SuggestNetwork(Some(tapped), None, FirstWithSsid(stored.value, DisplaySsid(sdk, Some(tapped))))))
  {
  }

  /** Below API 30 a network that is not open always opens the dialog and
      issues nothing. */
  lemma TapSecuredBeforeR(sdk: int, ui: Ui, tapped: ScanRecord, stored: Option<seq<Suggestion>>)
    requires sdk < R && Classify(tapped.capabilities) != NoPassword
    ensures OnTap(sdk, ui, Some(tapped), stored) == Reaction(Ui(Some(tapped), true), NoAction)
  {
  }

  /** A null selection is not open, because the safe call compares null
      with NO_PASSWORD: it opens the dialog below API 30 or when the query
      answers null, and otherwise hands a null record to
      `addNetworkSuggestion`, which returns at once. */
  lemma NullSelectionIsNotOpen(sdk: int, ui: Ui, stored: Option<seq<Suggestion>>, services: Services, status: int)
    ensures var r := OnTap(sdk, ui, None, stored);
      && (sdk < R || stored.None? ==> r.ui.dialogShown && r.action == NoAction)
      && (r.action.SuggestNetwork? ==>
            AddNetworkSuggestion(sdk, services, status, r.action.scan, r.action.password, r.action.suggestion) == [])
      && !r.action.AddNetwork?
  {
  }

  /** The as-written handler, fed an empty suggestion list for a WPA network
      on API 30, submits a suggestion with no passphrase and never asks for
      the password. */
  lemma TapWithoutStoredMatchSkipsDialog()
    ensures var net := ScanRecord(None, Some("Home"), "00:11:22:33:44:55", "[WPA2-PSK-CCMP][ESS]", -50);
      var r := OnTap(R, Ui(None, false), Some(net), Some([]));
      && !r.ui.dialogShown
      && r.action == SuggestNetwork(Some(net), None, None)
      && AddNetworkSuggestion(R, Services(true, true), STATUS_SUCCESS, Some(net), None, None)[0]
           == AddNetworkSuggestions([Suggestion("Home", "00:11:22:33:44:55", true, NoPassphrase)])
  {
    var net := ScanRecord(None, Some("Home"), "00:11:22:33:44:55", "[WPA2-PSK-CCMP][ESS]", -50);
    assert OccursAt(net.capabilities, "WPA", 1);
  }

  /** The handler with the evident intent: a stored suggestion for the
      network is reused, and when there is none the password is asked for. */
  function OnTapIntended(sdk: int, ui: Ui, tapped: Option<ScanRecord>, stored: Option<seq<Suggestion>>): (r: Reaction)
    ensures r.ui.selected == tapped
  {
    if TapsOpen(tapped) then
      if sdk >= Q then Reaction(ui.(selected := tapped), SuggestNetwork(tapped, None, None))
      else Reaction(ui.(selected := tapped), AddNetwork(CreateWifiConfiguration(Some(DisplaySsid(sdk, tapped)), None, Some(NoPassword))))
    else if sdk >= R && stored.Some? && FirstWithSsid(stored.value, DisplaySsid(sdk, tapped)).Some? then
      Reaction(ui.(selected := tapped), SuggestNetwork(tapped, None, FirstWithSsid(stored.value, DisplaySsid(sdk, tapped))))
    else Reaction(Ui(tapped, true), NoAction)
  }

  /** With the intended handler a network that is not open is never
      submitted without either a stored suggestion for its SSID or the
      dialog: the password is asked for exactly when no stored suggestion
      matches. */
  lemma IntendedTapAsksOrReuses(sdk: int, ui: Ui, tapped: ScanRecord, stored: Option<seq<Suggestion>>)
    requires Classify(tapped.capabilities) != NoPassword
    ensures var r := OnTapIntended(sdk, ui, Some(tapped), stored);
      && (r.action.SuggestNetwork? ==>
            r.action.suggestion.Some? && r.action.suggestion.value.ssid == DisplaySsid(sdk, Some(tapped)) &&
            r.action.suggestion.value in stored.value)
      && (r.ui.dialogShown <==>
            ui.dialogShown || sdk < R || stored.None? ||
            FirstWithSsid(stored.value, DisplaySsid(sdk, Some(tapped))).None?)
      && (r.action.NoAction? <==>
            sdk < R || stored.None? || FirstWithSsid(stored.value, DisplaySsid(sdk, Some(tapped))).None?)
  {
  }

  /** Where the two handlers agree: everywhere except a non-null suggestion
      list without a match on API 30 and later. */
  lemma IntendedDiffersOnlyWithoutMatch(sdk: int, ui: Ui, tapped: Option<ScanRecord>, stored: Option<seq<Suggestion>>)
    requires !(sdk >= R && !TapsOpen(tapped) && stored.Some? &&
               FirstWithSsid(stored.value, DisplaySsid(sdk, tapped)).None?)
    ensures OnTapIntended(sdk, ui, tapped, stored) == OnTap(sdk, ui, tapped, stored)
  {
  }

  /** The dialog's connect button: the typed password goes to
      `addNetworkSuggestion` from API 29 on and is dropped below; the dialog
      closes either way. */
  function OnConfirm(sdk: int, ui: Ui, password: string): (r: Reaction)
    ensures !r.ui.dialogShown && r.ui.selected == ui.selected
    ensures sdk >= Q <==> r.action.SuggestNetwork?
    ensures r.action.SuggestNetwork? ==> r.action.password == Some(password) && r.action.scan == ui.selected
    ensures r.action.SuggestNetwork? ==> r.action.suggestion.None?
  {
    Reaction(ui.(dialogShown := false),
             if sdk >= Q then SuggestNetwork(ui.selected, Some(password), None) else NoAction)
  }

  /** Confirming the dialog for a WPA network on API 29 or later submits a
      suggestion carrying the typed password, as a WPA3 passphrase when the
      capabilities mention WPA3 and a WPA2 passphrase otherwise. */
  lemma ConfirmCarriesPassword(sdk: int, services: Services, status: int, net: ScanRecord, password: string)
    requires sdk >= Q && services.wifiManager
    requires Secured(Classify(net.capabilities))
    ensures var a := OnConfirm(sdk, Ui(Some(net), true), password).action;
      var calls := AddNetworkSuggestion(sdk, services, status, a.scan, a.password, a.suggestion);
      calls[0].suggestions[0].passphrase ==
        (if ContainsIgnoreCase(net.capabilities, "wpa3") then Wpa3Passphrase(password) else Wpa2Passphrase(password))
  {
  }
}

=== FILE: text.dfy ===
/** The string operations the app relies on: case-sensitive and
    case-insensitive substring search, the case-insensitive `compareTo`
    used to order network names, and removal of one character. */
module Text {

  /** `t` occurs in `s` starting at index `i`. */
  predicate OccursAt(s: string, t: string, i: int) {
    0 <= i && i + |t| <= |s| && s[i..i + |t|] == t
  }

  /** Kotlin's `s.contains(t)`: some window of `s` equals `t`
      (the empty string occurs in every string). */
  predicate Contains(s: string, t: string) {
    exists i | 0 <= i <= |s| :: OccursAt(s, t, i)
  }

  /** A character in the ASCII range `'A'..'Z'`. */
  predicate IsUpper(c: char) {
    'A' <= c <= 'Z'
  }

  /** Case folding of one character: upper-case ASCII letters become
      lower-case, every other character is kept. */
  function Fold(c: char): (d: char)
    ensures !IsUpper(d)
    ensures !IsUpper(c) ==> d == c
  {
    if IsUpper(c) then (c as int + 32) as char else c
  }

  /** The string with every character folded. */
  function Lower(s: string): (t: string)
    ensures |t| == |s|
    ensures forall i :: 0 <= i < |s| ==> t[i] == Fold(s[i])
  {
    seq(|s|, i requires 0 <= i < |s| => Fold(s[i]))
  }

  /** Kotlin's `s.contains(t, ignoreCase = true)`. */
  predicate ContainsIgnoreCase(s: string, t: string) {
    Contains(Lower(s), Lower(t))
  }

  /** Lexicographic order on character codes with a proper prefix first:
      `a.compareTo(b) <= 0` for Kotlin strings. */
  predicate LexLe(a: string, b: string)
    decreases |a|
  {
    |a| == 0 || (|b| > 0 && (a[0] < b[0] || (a[0] == b[0] && LexLe(a[1..], b[1..]))))
  }

  /** `a.compareTo(b, ignoreCase = true) <= 0`. */
  predicate LeIgnoreCase(a: string, b: string) {
    LexLe(Lower(a), Lower(b))
  }

  lemma {:induction false} LexLeReflexive(a: string)
    ensures LexLe(a, a)
    decreases |a|
  {
    if |a| > 0 {
      LexLeReflexive(a[1..]);
    }
  }

  lemma {:induction false} LexLeTotal(a: string, b: string)
    ensures LexLe(a, b) || LexLe(b, a)
    decreases |a|
  {
    if |a| > 0 && |b| > 0 && a[0] == b[0] {
      LexLeTotal(a[1..], b[1..]);
    }
  }

  lemma {:induction false} LexLeTransitive(a: string, b: string, c: string)
    requires LexLe(a, b) && LexLe(b, c)
    ensures LexLe(a, c)
    decreases |a|
  {
    if |a| > 0 && a[0] == b[0] && b[0] == c[0] {
      LexLeTransitive(a[1..], b[1..], c[1..]);
    }
  }

  /** `s.replace(c.toString(), "")`: every occurrence of `c` removed,
      the other characters kept in order. */
  function Remove(s: string, c: char): (t: string)
    ensures |t| <= |s|
    ensures forall i :: 0 <= i < |t| ==> t[i] != c
    ensures (forall i :: 0 <= i < |s| ==> s[i] != c) ==> t == s
  {
    if |s| == 0 then []
    else if s[0] == c then Remove(s[1..], c)
    else [s[0]] + Remove(s[1..], c)
  }

  /** Removal works piecewise: it distributes over concatenation. */
  lemma {:induction false} RemoveConcat(a: string, b: string, c: char)
    ensures Remove(a + b, c) == Remove(a, c) + Remove(b, c)
    decreases |a|
  {
    if a == [] {
      assert a + b == b;
    } else {
      assert (a + b)[0] == a[0];
      assert (a + b)[1..] == a[1..] + b;
      RemoveConcat(a[1..], b, c);
    }
  }

  /** A single character survives exactly when it is not the one removed;
      with `RemoveConcat` this fixes the result: the other characters, in
      order. */
  lemma RemoveOne(x: char, c: char)
    ensures Remove([x], c) == (if x == c then [] else [x])
  {
    assert [x][1..] == [];
  }

  /** `"\"Home\"".replace("\"", "")` is "Home". */
  lemma UnquoteExample()
    ensures Remove("\"Home\"", '"') == "Home"
  {
    RemoveConcat("\"", "Home\"", '"');
    RemoveConcat("Home", "\"", '"');
    RemoveOne('"', '"');
  }
}
